=== FILE: README.md ===
# rabbitmq-supervisor-bundle: a Dafny model of the supervisord control plane

The bundle runs RabbitMQ consumers under one `supervisord` daemon. It has two
services:

- **`RabbitMqSupervisor`**, the lifecycle manager. It does three things:
  - writes the daemon's main configuration file and one program
    configuration file per consumer into a worker directory;
  - signals the daemon through its PID file and `kill`;
  - composes these steps into `build`, `rebuild`, `restart`, `stop`,
    `start`, `hup` and `status`.
- **`Supervisor`**, the control client. It does two things:
  - builds and issues `supervisorctl` command lines;
  - launches `supervisord` when the status output says the daemon cannot be
    reached.

This project models both services as pure functions over an immutable world:
`Environment.World(fs, processes, log)`.

- `fs` maps paths to files and directories. The PID file lives there too.
- `processes` is the set of live PIDs.
- `log` is the sequence of shell commands issued. Each command carries its
  command line, its working directory, and how it is run: `passthru`,
  `Process::run` or `Process::mustRun`.

The outside world answers through parameters:

- **`Env`**:
  - what `supervisorctl status` prints;
  - how a `supervisord` launch exits;
  - the process table each successive liveness probe of `wait` sees.
- **`Renderer`**: the templating engine, an opaque function.
- **`Invocation`**: `SCRIPT_FILENAME` and the working directory.

An operation that would still be polling when the supplied probe results
run out ends as `Pending`. An operation that raises ends as `Failed`, with
the world it had reached.

These parts of the PHP runtime are modelled explicitly, because the
control plane's decisions depend on them:

- `strpos` (where offset 0 is falsy);
- `empty` and boolean conversion of strings ("" and "0" are false);
- the `(int)` cast with 64-bit saturation;
- `%d` rendering;
- `dirname`;
- `SplFileInfo::getExtension`;
- the positional and sequential subset of `sprintf`.

The runtime semantics are those of PHP 8. The one place where this matters
is a command template `sprintf` cannot format: PHP 8 throws there, so the
build stops at the first worker name with `MalformedTemplate`. PHP 5 and 7
behave differently (see "## Left out").

Modules:

| file | module | contents |
|---|---|---|
| wrappers.dfy | Wrappers | `Option` |
| php_strings.dfy | PhpStrings | integer rendering and casting, `strpos`, truthiness |
| php_format.dfy | PhpFormat | `sprintf` subset and its template lemmas |
| php_paths.dfy | PhpPaths | `dirname`, extension, directory of a configured path |
| environment.dfy | Environment | world, filesystem writes, `mkdir -p` |
| supervisor.dfy | Supervisor | the control client |
| lifecycle.dfy | Lifecycle | the lifecycle manager |
| supervisor_proofs.dfy | SupervisorProofs | launch decision, command lines |
| lifecycle_proofs.dfy | LifecycleProofs | options, command templates, signals, ordering |
| build_proofs.dfy | BuildProofs | what `build` leaves on disk; idempotence |
| worker_proofs.dfy | WorkerProofs | which command each worker file carries |

The code and a plain description of the launch rule differ. One could say
the daemon is launched when the status output *contains* one of the two
markers. The code tests `strpos(...)` for truthiness instead, so a marker at
offset 0 is not noticed. The model follows the code, and
`SupervisorProofs.FoundAfterStartMeaning` states the exact rule.

## Model

| member | source | states |
|---|---|---|
| Supervisor.NewClient | Services/Supervisor.php:13-18 | Each parameter is empty exactly when its argument is null, "" or "0". Otherwise it is ` --configuration=<c>` or ` --identifier=<i>`. |
| SupervisorProofs.ZeroConfigurationDropped | Services/Supervisor.php:16 | A configuration of "0" is treated as absent, so `supervisorctl status` runs without `--configuration`. |
| SupervisorProofs.ClientCommandLines | Services/Supervisor.php:28-69 | The configuration reaches both `supervisorctl` and `supervisord`. The identifier reaches only the `supervisord` launch. |
| Supervisor.ExecuteCommand | Services/Supervisor.php:28-35 | The `supervisorctl` line is the configuration parameter followed by a space and the subcommand. It runs in the application directory, in the mode that does not raise. |
| Supervisor.ExecuteTemplate | Services/Supervisor.php:29-33 | The positional `supervisorctl` template formats to the configuration parameter, then a space, then the subcommand. |
| Supervisor.LaunchCommand | Services/Supervisor.php:63-72 | The launch line is `supervisord` followed by the configuration and identifier parameters. It runs in the application directory, and a non-zero exit raises. |
| Supervisor.LaunchTemplate | Services/Supervisor.php:64-68 | The positional launch template concatenates the two parameters with nothing between them. |
| Supervisor.Execute | Services/Supervisor.php:26-44 | Appends exactly one `supervisorctl` command to the log. The filesystem and the processes are untouched. |
| Supervisor.ReloadAndUpdate | Services/Supervisor.php:49-53 | Appends exactly two commands: `reread`, then `update`. |
| Supervisor.Run | Services/Supervisor.php:58-79 | The first command is always the status query. A launch follows exactly when a marker is found after offset 0. The run fails exactly when that launch exits non-zero, and the error names the launch command. |
| SupervisorProofs.FoundAfterStartMeaning | Services/Supervisor.php:62 | The launch test holds iff the output contains the marker and does not begin with it. |
| SupervisorProofs.MarkerAfterText | Services/Supervisor.php:62 | A marker that follows other text is detected. |
| SupervisorProofs.MarkerAtStartIgnored | Services/Supervisor.php:62 | A marker at offset 0 is not detected. |
| SupervisorProofs.MissingSocketLaunches | Services/Supervisor.php:60-69 | A missing-socket message after any text that does not itself start with the message leads to exactly two commands: status, then the launch. |
| SupervisorProofs.RefusedAtStartDoesNotLaunch | Services/Supervisor.php:62 | Output that begins with the refused-connection text, and lacks the socket marker, is taken for a running daemon. |
| SupervisorProofs.NoMarkerNoLaunch | Services/Supervisor.php:62 | Without either marker, `run` issues only the status query and never fails. |
| Supervisor.Status | Services/Supervisor.php:85-88 | Returns the status output verbatim, after issuing one status query. |
| PhpStrings.StrPos | Services/Supervisor.php:62 | Returns the first offset where the needle occurs, or nothing exactly when it does not occur. |
| PhpStrings.IntToString | Services/RabbitMqSupervisor.php:192 | `%d` rendering: a leading minus sign exactly for negative numbers, otherwise only digits. |
| PhpStrings.IntCastRoundTrip | Services/RabbitMqSupervisor.php:243 | `(int)` of a rendered 64-bit integer gives the integer back. |
| PhpStrings.IntCastIgnoresTrailingNewline | Services/RabbitMqSupervisor.php:243 | A PID file reading "42\n" casts to 42. |
| PhpStrings.IntCastWithoutDigits | Services/RabbitMqSupervisor.php:243 | Content without a leading number casts to 0. |
| PhpStrings.IntCast | Services/RabbitMqSupervisor.php:243 | The cast always yields a value within the 64-bit range `PHP_INT_MIN`..`PHP_INT_MAX`. |
| PhpFormat.TwoPositional | Services/Supervisor.php:29-33 | A template with `%1$` and `%2$` directives substitutes the first and second arguments in place. |
| PhpFormat.Sprintf | Services/RabbitMqSupervisor.php:295 | A template containing no `%` is returned unchanged, whatever the arguments. |
| PhpFormat.TwoSequential | Services/RabbitMqSupervisor.php:287 | A template with two sequential directives takes the arguments in order. |
| PhpFormat.FailureIgnoresValues | Services/RabbitMqSupervisor.php:295 | Whether formatting fails depends only on the template and the number of arguments, not their values. |
| PhpFormat.MissingArgumentFails | Services/RabbitMqSupervisor.php:295 | Example: `%2$s` with a single argument cannot be formatted. |
| PhpFormat.PositionPastArguments | Services/RabbitMqSupervisor.php:295 | A one-digit position larger than the number of arguments makes formatting fail, whatever text follows the directive. |
| PhpPaths.ConfigurationFileInDirectory | Services/RabbitMqSupervisor.php:313 | `<dir><name>.conf` lies directly in `dir` and has the extension `conf`, when `dir` ends with `/` and the name has no `/`. |
| PhpPaths.DirnameExamples | Services/RabbitMqSupervisor.php:251-253 | `dirname` drops the last component; a bare file name has directory `.`. A path ending in `/` is its own directory. |
| PhpPaths.Dirname | Services/RabbitMqSupervisor.php:252 | The directory is empty only for the empty path. It is `.` or a prefix of the path, and it never ends in `/` unless it is the root. |
| PhpPaths.Extension | Services/RabbitMqSupervisor.php:109 | The extension contains no `.` and no `/`. When it is non-empty it is the end of the base name, right after a `.`, and is shorter than the base name. |
| Environment.WriteFile | Services/RabbitMqSupervisor.php:274-277 | A write stores the content at a writable path. At any other path the filesystem is unchanged. Every other entry, and every directory, is unchanged in both cases. |
| Environment.WriteAllIsOverwritten | Services/RabbitMqSupervisor.php:290-318 | Writing files one after another leaves each writable target with the content written to it last, and nothing else changed. |
| Environment.MakeDirectories | Services/RabbitMqSupervisor.php:256 | `mkdir -p` creates the directory unless the path is empty or a file stands in the way. When it succeeds, the directories added are exactly the path's chain of ancestors (less `/` and `.`), so nothing unrelated is created. On failure nothing changes, and it never changes a file. |
| Lifecycle.TransformBoolsToStrings | Services/RabbitMqSupervisor.php:337-349 | Keeps length, keys and order. Non-boolean values are kept; `true` and `false` become the strings "true" and "false". |
| LifecycleProofs.TransformLeavesNoBooleans | Services/RabbitMqSupervisor.php:337-349 | No boolean remains after the transformation. |
| LifecycleProofs.TransformIsIdempotent | Services/RabbitMqSupervisor.php:337-349 | Transforming twice gives the same result as transforming once. |
| LifecycleProofs.DefaultOptionsTransformed | Services/RabbitMqSupervisor.php:301 | The default worker options reach the template with `autorestart` and `stopasgroup` as "true". |
| Lifecycle.ExecutablePath | Services/RabbitMqSupervisor.php:283-288 | A script path starting with `/` is used as is. Any other is prefixed with the working directory and `/`. |
| LifecycleProofs.AbsoluteScriptPath | Services/RabbitMqSupervisor.php:283-284 | An absolute script path is kept. |
| LifecycleProofs.RelativeScriptPath | Services/RabbitMqSupervisor.php:286-287 | A relative script path is resolved against the working directory. |
| Lifecycle.WorkerFilePath | Services/RabbitMqSupervisor.php:313 | A worker's file is the directory, the name and `.conf`, with no separator added. |
| LifecycleProofs.DefaultConsumerCommand | DependencyInjection/Configuration.php:76 | The default consumer template gives `rabbitmq:consumer -m <max> <name>`. |
| LifecycleProofs.DefaultMultipleConsumerCommand | DependencyInjection/Configuration.php:77 | The default multiple-consumer template gives `rabbitmq:multiple-consumer -m <max> <name>`. |
| LifecycleProofs.DefaultsExample | DependencyInjection/Configuration.php:76-78 | With the default bound, a consumer's command ends in `-m 250 <name>`. |
| LifecycleProofs.CustomCommandExample | Services/RabbitMqSupervisor.php:295 | `consume -m %1$d %2$s` with 250 and `orders` gives `consume -m 250 orders`. |
| LifecycleProofs.ThirdArgumentMissing | Services/RabbitMqSupervisor.php:295 | A template that asks for a third argument cannot be formatted. |
| LifecycleProofs.MalformedTemplateFailsGeneration | Services/RabbitMqSupervisor.php:290-295 | Such a template fails generation for any non-empty list of names. An empty list never formats it. |
| Lifecycle.WorkerEntries | Services/RabbitMqSupervisor.php:281-320 | One file per name, in order, at `<dir><name>.conf`. Each holds the program rendering of that name's variables and formatted command. It fails exactly when the list is non-empty and the template cannot be formatted. |
| Lifecycle.GenerateWorkerConfigurations | Services/RabbitMqSupervisor.php:281-305 | Fails exactly when there is a name and the command template cannot be formatted for the first one. On success the directories are unchanged. |
| Lifecycle.Init | Services/RabbitMqSupervisor.php:261-279 | Always rewrites the main configuration with the rendered supervisord template when the path is writable. Otherwise nothing changes. No other entry, process or command changes. |
| Lifecycle.EnsureDirectory | Services/RabbitMqSupervisor.php:250-257 | Afterwards the directory of the path exists, unless it is empty or blocked by a file. An existing directory leaves everything as it was. A missing one gets exactly its chain of ancestors added. No file changes. |
| Lifecycle.CreatePathDirectories | Services/RabbitMqSupervisor.php:249-259 | Afterwards the directory of every configured path exists, unless it is empty or blocked. Directories are only added, and each one added lies on the chain of some configured path's directory. Files never change. |
| BuildProofs.CreatePathDirectoriesStable | Services/RabbitMqSupervisor.php:249-259 | Once every such directory exists, creating them again changes nothing. |
| Lifecycle.RemoveListedWorkerConfigurations | Services/RabbitMqSupervisor.php:103-114 | The deletion loop, walking the directory listing, removes exactly the regular `.conf` files directly in the worker directory. It leaves everything else as it was. |
| BuildProofs.RemoveIsUnlink | Services/RabbitMqSupervisor.php:103-114 | Deletion unlinks the selected regular files only. Directories are kept, and no selected file remains. |
| Lifecycle.PreparedFileSystem | Services/RabbitMqSupervisor.php:96-100 | Its directories are those the directory-creation step gives. An existing main configuration file leaves every file as it was. |
| Lifecycle.Materialize | Services/RabbitMqSupervisor.php:94-120 | Fails with a missing worker directory exactly when that directory is not a directory after the first two steps. Otherwise it fails exactly when the consumer or multiple-consumer template cannot be formatted for the first name of its list. An error is never a process failure. What it does to the filesystem is stated by BuildProofs.MaterializeKeepsPrepared and BuildProofs.MaterializeKeepsDirectories. |
| Lifecycle.Build | Services/RabbitMqSupervisor.php:94-125 | Exactly one of three outcomes. (1) A materialization error fails before any command. (2) Otherwise the log is: the status query; the launch exactly when needed; then `reread` and `update` unless the launch failed. (3) The launch failing is the only other failure. |
| BuildProofs.BuildMirrorsWorkers | Services/RabbitMqSupervisor.php:102-120 | After a successful build, the regular `.conf` files in the worker directory are exactly `<dir><name>.conf` for the configured consumers and multiple consumers. Paths held by a directory are excluded. Each file holds the rendering written to it last. Stated for a worker directory ending in `/` and names without `/` (see "## Left out"). |
| WorkerProofs.BuildWritesConsumerCommand | Services/RabbitMqSupervisor.php:116-117 | A name that is only a consumer gets the consumer template's command. |
| WorkerProofs.BuildWritesMultipleConsumerCommand | Services/RabbitMqSupervisor.php:116-120 | A multiple consumer gets the multiple-consumer template's command, even if it is also a consumer, since that file is written second. |
| WorkerProofs.LastContentOfAppend | Services/RabbitMqSupervisor.php:117-120 | Of the two generation passes, the second decides the content of every path it writes. |
| WorkerProofs.ConfigurationPathInjective | Services/RabbitMqSupervisor.php:313 | Different worker names give different configuration paths. |
| BuildProofs.MaterializeKeepsPrepared | Services/RabbitMqSupervisor.php:104-120 | Outside the worker directory's `.conf` files, the build leaves every entry as its first two steps left it. |
| BuildProofs.MaterializeKeepsDirectories | Services/RabbitMqSupervisor.php:96-120 | The build's directories are exactly those created by its first step: deletion and generation touch no directory. |
| BuildProofs.BuildKeepsMainConfiguration | Services/RabbitMqSupervisor.php:98-100 | An existing main configuration file outside the worker `.conf` set is left unchanged. |
| BuildProofs.BuildCreatesMainConfiguration | Services/RabbitMqSupervisor.php:96-100 | A missing main configuration, whose directory can be created, is written with the rendered supervisord template. |
| BuildProofs.CleaningUndoesGeneration | Services/RabbitMqSupervisor.php:104-120 | Deleting the worker files again after a successful build gives the filesystem the first deletion gave. |
| BuildProofs.BuildIsIdempotent | Services/RabbitMqSupervisor.php:94-121 | A second build over the filesystem a successful build left gives the same filesystem, again without error. This needs a well-formed worker directory and no file in the way of a configured directory. |
| Lifecycle.SupervisorPid | Services/RabbitMqSupervisor.php:237-247 | A PID exists exactly when the PID file is a readable regular file. It is the `(int)` cast of the file's content. |
| LifecycleProofs.ProcessRunningIffListed | Services/RabbitMqSupervisor.php:221-230 | Under the modelled `ps` output, the source's line-count test sees the daemon iff its PID is in the process table. That output is an assumption about `ps`, not a derived property (see "## Left out"). |
| Lifecycle.IsProcessRunning | Services/RabbitMqSupervisor.php:221-230 | The daemon counts as running exactly when its PID is in the process table. |
| Lifecycle.SignalArgument | Services/RabbitMqSupervisor.php:188-190 | An empty signal stays empty. Any other becomes `-<signal>`. |
| Lifecycle.KillCommand | Services/RabbitMqSupervisor.php:188-194 | The command is `kill`, the signal argument and the PID, separated by single spaces, run through `passthru`. |
| LifecycleProofs.HupCommandExample | Services/RabbitMqSupervisor.php:188-192 | `hup` for PID 42 issues `kill -HUP 42`. |
| LifecycleProofs.DefaultSignalCommandExample | Services/RabbitMqSupervisor.php:188-192 | `stop` for PID 42 issues `kill  42`, with two spaces. |
| Lifecycle.FirstExit | Services/RabbitMqSupervisor.php:209-211 | Finds the first probe that no longer sees the PID; every earlier probe saw it. Finds nothing exactly when every probe sees it. |
| Lifecycle.Wait | Services/RabbitMqSupervisor.php:205-213 | With no PID, returns at once. Otherwise returns at the first probe that no longer sees the daemon, or is still waiting when every probe sees it. It issues no command. |
| Lifecycle.Kill | Services/RabbitMqSupervisor.php:184-200 | With an empty PID or a dead daemon, nothing happens. Otherwise exactly one `kill` command is logged. Without the wait flag it returns at once. With it, a completed call leaves the daemon gone. The filesystem never changes. |
| LifecycleProofs.NonNumericPidMeansNoSignal | Services/RabbitMqSupervisor.php:186-187 | A readable PID file whose content casts to 0, such as one without leading digits, counts as empty, so nothing is signalled and nothing changes. |
| Lifecycle.Stop | Services/RabbitMqSupervisor.php:148-151 | Completes or is still waiting, never fails, and leaves the filesystem alone. With no live daemon nothing happens. With one, exactly one default-signal `kill` is logged, and when it completes the PID is gone from the process table. |
| Lifecycle.Hup | Services/RabbitMqSupervisor.php:173-176 | Always returns at once and changes neither the filesystem nor the process table. A live daemon gets exactly one `kill -HUP`; otherwise nothing happens. |
| Lifecycle.Start | Services/RabbitMqSupervisor.php:156-159 | Logs the status query and, when the output says the daemon is not running, the launch. It fails exactly when a launch was needed and exited non-zero. Filesystem and process table are unchanged. |
| Lifecycle.Rebuild | Services/RabbitMqSupervisor.php:130-134 | Still waiting exactly when its `stop` is, and then the filesystem is untouched. Otherwise the filesystem is what materializing the build gives. It fails exactly when `stop` completed and either materialization failed or a needed launch exited non-zero. After a completed `stop`, a failed materialization adds no command; otherwise the log continues with status, the launch when needed, and reread and update unless the launch failed. |
| Lifecycle.Restart | Services/RabbitMqSupervisor.php:139-143 | Never touches the filesystem. Still waiting exactly when its `stop` is. Fails exactly when `stop` completed and the start needed a launch that exited non-zero. |
| LifecycleProofs.MissingPidFileMeansNoSignal | Services/RabbitMqSupervisor.php:237-247 | A missing, unreadable or non-regular PID file gives a null PID, so `kill` signals nothing and changes nothing. |
| LifecycleProofs.HupSignalsWithoutWaiting | Services/RabbitMqSupervisor.php:173-176 | `hup` sends `kill -HUP <pid>` to a live daemon and returns at once. |
| LifecycleProofs.StopWaitsForExit | Services/RabbitMqSupervisor.php:148-151 | A completed `stop` sent the default signal and returned at the first probe that no longer saw the daemon. |
| LifecycleProofs.StopPendsWhileDaemonLives | Services/RabbitMqSupervisor.php:205-213 | While every probe still sees the daemon, `stop` has not returned. |
| LifecycleProofs.RestartStopsFirst | Services/RabbitMqSupervisor.php:139-143 | `restart` signals a live daemon first, then asks for the status. It starts nothing while the daemon has not exited. |
| LifecycleProofs.RebuildStopsFirst | Services/RabbitMqSupervisor.php:130-134 | `rebuild` signals a live daemon first and builds nothing while it has not exited. Afterwards the filesystem is what `build` makes of it. |
| LifecycleProofs.RebuildWithoutDaemonBuilds | Services/RabbitMqSupervisor.php:130-134 | With no daemon running, `rebuild` is exactly `build`. |
| LifecycleProofs.RestartWithoutDaemonStarts | Services/RabbitMqSupervisor.php:139-143 | With no daemon running, `restart` is exactly `start`. |
| Lifecycle.Status | Services/RabbitMqSupervisor.php:165-168 | Returns the status output verbatim after one status query. |

## Left out

- `chmod` of the written files (Services/RabbitMqSupervisor.php:278, 319): mode bits are not part of the filesystem model. The file mode reaches only the template variables.
- `error_log` to `/tmp/supervisor.log`: debugging output with no effect on decisions.
- The output callbacks of `Process::run`, `mustRun` and `wait`: only the command, its directory, its run mode and the launch exit code are modelled.
- The daemon's effects: what `supervisorctl` and `supervisord` do to the process table is opaque. The probe results are handed in as `Env.polls`, and `Start` leaves the process table alone.
- `sleep(1)` between probes: `wait` is modelled over a finite sequence of probe results. Running out of them is `Pending`, the model's stand-in for "still blocked".
- The `ps` probe is a query: it is not recorded in the command log.
- Twig rendering: `Renderer` is an opaque parameter, and only the variables it receives are modelled.
- `$_SERVER["SCRIPT_FILENAME"]` and `getcwd()`: both come in as the `Invocation` parameter.
- Filesystem failures other than the modelled ones are not modelled: permissions, full disks, races, `realpath`, symbolic links and repeated slashes inside paths. The modelled ones are a missing parent directory, a directory in place of a file, a file blocking `mkdir -p`, and a missing worker directory (where `DirectoryIterator` throws).
- PhpFormat.PositionPastArguments: stated for one-digit positions only; positions of two or more digits fail in the same way but are not covered by the lemma.
- `sprintf` beyond `%%`, `%d`, `%s`, `%N$d` and `%N$s`: widths, padding, precision and other conversions make `Sprintf` return None. The command templates of the schema stay inside the subset. A configured command template with a width, such as `%5d`, makes the modelled build stop with `MalformedTemplate`, where PHP 8 would format it and carry on.
- The `(int)` cast reads an optional sign and the leading digits. Exponent and hexadecimal forms are not modelled.
- DependencyInjection/Configuration.php is not part of this model beyond its defaults. These are the commands, the 250-message bound, one worker and mode "0700" (lines 25, 56, 76-78 and 97-110). Two notes on them:
  - The schema's `%%1$d` is container parameter escaping and reaches the service as `%1$d`.
  - The schema files `file_mode` under `paths`. `createPathDirectories` therefore also visits the mode string, whose directory is `.`. The container extension that fills both constructor arguments is not part of this model, so `Settings` carries the mode twice.
- Concurrency between several instances: none is defined.
- Lifecycle.Kill: with the wait flag set, it does not state which probe ended the wait. `LifecycleProofs.StopWaitsForExit` states it for `stop`, the only caller that waits.
- BuildProofs.BuildIsIdempotent: stated only for worker names without `/`, a worker directory ending in `/`, and no regular file blocking a configured directory. Outside that shape a generated file can land outside the deleted set.
- BuildProofs.BuildMirrorsWorkers: stated only for a worker directory ending in `/` and worker names without `/` (`WellFormedWorkers`). Without that shape `<dir><name>.conf` can lie outside the worker directory, and deletion would not select it.
- PHP 5 and 7 `sprintf` semantics: there, a template `sprintf` cannot format gives a warning and `false`, and the build goes on with an empty command. The model follows PHP 8, where `sprintf` throws (`ArgumentCountError`, `ValueError`), so generation stops with `MalformedTemplate` at the first name.
- The `ps <pid>` probe is abstracted: its output is modelled as a header line, plus one row exactly when the PID is in the process table. `LifecycleProofs.ProcessRunningIffListed` therefore rests on this assumption about `ps`; the model does not derive it.

=== FILE: build_proofs.dfy ===
/** What `build` does to the filesystem: the worker directory ends up
    mirroring the configured consumers, and running `build` twice leaves the
    same filesystem as running it once. */
module BuildProofs {
  import opened Wrappers
  import opened PhpPaths
  import opened Environment
  import opened Lifecycle

  // ------------------------------------------------------------ unlinking

  /** Every regular file in `selected` removed; directories stay. */
  ghost function Unlink(fs: FileSystem, selected: iset<string>): FileSystem
  {
    map k | k in fs && !(fs[k].File? && k in selected) :: fs[k]
  }

  /** The paths the deletion loop of `build` selects. */
  ghost function WorkerDirectoryPaths(dir: string): iset<string>
  {
    iset k | InWorkerDirectory(k, dir)
  }

  ghost predicate HoldsNoneOf(fs: FileSystem, selected: iset<string>)
  {
    forall k :: k in fs && fs[k].File? ==> k !in selected
  }

  lemma RemoveIsUnlink(fs: FileSystem, dir: string)
    ensures RemoveWorkerConfigurations(fs, dir) == Unlink(fs, WorkerDirectoryPaths(dir))
    ensures HoldsNoneOf(RemoveWorkerConfigurations(fs, dir), WorkerDirectoryPaths(dir))
    ensures Directories(RemoveWorkerConfigurations(fs, dir)) == Directories(fs)
  {
    var r := RemoveWorkerConfigurations(fs, dir);
    assert Directories(r) == Directories(fs) by {
      forall k | k in fs && fs[k].Dir? ensures k in r { }
    }
  }

  /** Unlinking the selected files again undoes a batch of writes that only
      created selected files. */
  lemma UnlinkUndoesWrites(c: FileSystem, entries: seq<(string, string)>, allowed: iset<string>, selected: iset<string>)
    requires HoldsNoneOf(c, selected)
    requires forall k :: k in Targets(entries) ==> k in selected
    requires forall k :: k in Targets(entries) && k in allowed ==> k !in c
    ensures Unlink(Overwrite(c, entries, allowed), selected) == c
  {
    var o := Overwrite(c, entries, allowed);
    var u := Unlink(o, selected);
    forall k ensures k in u <==> k in c {
      if k in c { assert o[k] == c[k]; }
    }
    forall k | k in c ensures u[k] == c[k] { }
  }

  /** Writing a selected file where there was none, or a file, is forgotten
      by unlinking. */
  lemma UnlinkForgetsWrite(fs: FileSystem, k: string, node: Node, selected: iset<string>)
    requires k in selected && node.File?
    requires k !in fs || fs[k].File?
    ensures Unlink(fs[k := node], selected) == Unlink(fs, selected)
  {
    var a := Unlink(fs[k := node], selected);
    var b := Unlink(fs, selected);
    assert forall j :: j in a <==> j in b;
  }

  // ----------------------------------------------------- the worker files

  /** A worker directory that ends with `/` and names without `/`: the shape
      under which `<dir><name>.conf` lies directly in the worker directory. */
  predicate WellFormedWorkers(s: Settings)
  {
    && EndsWithSlash(s.paths.workerConfigurationDirectory)
    && forall n :: n in s.consumers + s.multipleConsumers ==> forall j :: 0 <= j < |n| ==> n[j] != '/'
  }

  /** One configuration path per configured worker name. */
  function ConfigurationPaths(s: Settings): set<string>
  {
    set n | n in s.consumers + s.multipleConsumers :: s.paths.workerConfigurationDirectory + n + ".conf"
  }

  /** The entries of both `generateWorkerConfigurations` calls together. */
  function AllEntries(s: Settings, render: Renderer, inv: Invocation): Option<seq<(string, string)>>
  {
    var exe := ExecutablePath(inv);
    match WorkerEntries(s, render, exe, s.consumers, s.commands.rabbitmqConsumer)
    case None => None
    case Some(single) =>
      match WorkerEntries(s, render, exe, s.multipleConsumers, s.commands.rabbitmqMultipleConsumer)
      case None => None
      case Some(multiple) => Some(single + multiple)
  }

  lemma {:induction false} WriteAllAppend(fs: FileSystem, a: seq<(string, string)>, b: seq<(string, string)>)
    ensures WriteAll(WriteAll(fs, a), b) == WriteAll(fs, a + b)
    decreases |b|
  {
    if b == [] {
      assert a + b == a;
    } else {
      var init := b[..|b| - 1];
      WriteAllAppend(fs, a, init);
      assert (a + b)[..|a + b| - 1] == a + init;
      assert (a + b)[|a + b| - 1] == b[|b| - 1];
    }
  }

  lemma TargetsOfAppend(a: seq<(string, string)>, b: seq<(string, string)>)
    ensures Targets(a + b) == Targets(a) + Targets(b)
  {
    forall k | k in Targets(a + b) ensures k in Targets(a) + Targets(b) {
      var i :| 0 <= i < |a + b| && (a + b)[i].0 == k;
      if i >= |a| { assert b[i - |a|].0 == k; }
    }
    forall k | k in Targets(a) ensures k in Targets(a + b) {
      var i :| 0 <= i < |a| && a[i].0 == k;
      assert (a + b)[i].0 == k;
    }
    forall k | k in Targets(b) ensures k in Targets(a + b) {
      var i :| 0 <= i < |b| && b[i].0 == k;
      assert (a + b)[|a| + i].0 == k;
    }
  }

  lemma TargetsOfWorkerEntries(s: Settings, render: Renderer, exe: string, names: seq<string>, template: string)
    requires WorkerEntries(s, render, exe, names, template).Some?
    ensures Targets(WorkerEntries(s, render, exe, names, template).value)
         == set n | n in names :: s.paths.workerConfigurationDirectory + n + ".conf"
  {
    var e := WorkerEntries(s, render, exe, names, template).value;
    var dir := s.paths.workerConfigurationDirectory;
    forall k | k in Targets(e) ensures k in set n | n in names :: dir + n + ".conf" {
      var i :| 0 <= i < |e| && e[i].0 == k;
      assert names[i] in names;
    }
    forall n | n in names ensures dir + n + ".conf" in Targets(e) {
      var i :| 0 <= i < |names| && names[i] == n;
      assert e[i].0 == dir + n + ".conf";
    }
  }

  lemma TargetsOfAllEntries(s: Settings, render: Renderer, inv: Invocation)
    requires AllEntries(s, render, inv).Some?
    ensures Targets(AllEntries(s, render, inv).value) == ConfigurationPaths(s)
  {
    var exe := ExecutablePath(inv);
    var dir := s.paths.workerConfigurationDirectory;
    TargetsOfWorkerEntries(s, render, exe, s.consumers, s.commands.rabbitmqConsumer);
    TargetsOfWorkerEntries(s, render, exe, s.multipleConsumers, s.commands.rabbitmqMultipleConsumer);
    var single := WorkerEntries(s, render, exe, s.consumers, s.commands.rabbitmqConsumer).value;
    var multiple := WorkerEntries(s, render, exe, s.multipleConsumers, s.commands.rabbitmqMultipleConsumer).value;
    TargetsOfAppend(single, multiple);
    var names := s.consumers + s.multipleConsumers;
    assert forall n :: n in names <==> n in s.consumers || n in s.multipleConsumers;
  }

  lemma ConfigurationPathShape(s: Settings, k: string)
    requires WellFormedWorkers(s)
    requires k in ConfigurationPaths(s)
    ensures k in WorkerDirectoryPaths(s.paths.workerConfigurationDirectory)
    ensures k != "" && !EndsWithSlash(k) && Canonical(k) == k && !IsImplicitDirectory(k)
  {
    var n :| n in s.consumers + s.multipleConsumers && k == s.paths.workerConfigurationDirectory + n + ".conf";
    ConfigurationFileInDirectory(s.paths.workerConfigurationDirectory, n);
    assert k[|k| - 1] == 'f';
  }

  lemma CanonicalIsIdempotent(p: string)
    ensures Canonical(Canonical(p)) == Canonical(p)
  {
    assert TrimTrailingSlashes("/") == TrimTrailingSlashes("") == "";
  }

  /** In a directory that exists, a configuration path can be written
      exactly when no directory sits at that path. */
  lemma ConfigurationPathWritable(s: Settings, fs: FileSystem, k: string)
    requires WellFormedWorkers(s)
    requires IsDir(fs, s.paths.workerConfigurationDirectory)
    requires k in ConfigurationPaths(s)
    ensures Writable(fs, k) <==> k !in Directories(fs)
  {
    var n :| n in s.consumers + s.multipleConsumers && k == s.paths.workerConfigurationDirectory + n + ".conf";
    ConfigurationFileInDirectory(s.paths.workerConfigurationDirectory, n);
    ConfigurationPathShape(s, k);
    CanonicalIsIdempotent(s.paths.workerConfigurationDirectory);
  }

  /** The filesystem after `build`'s writes, for a cleaned directory `c`. */
  lemma GeneratedIsOverwritten(s: Settings, render: Renderer, inv: Invocation, c: FileSystem)
    requires AllEntries(s, render, inv).Some?
    ensures GenerateWorkerConfigurations(s, render, ExecutablePath(inv), c, s.consumers, s.commands.rabbitmqConsumer).Some?
    ensures
      var single := GenerateWorkerConfigurations(s, render, ExecutablePath(inv), c, s.consumers, s.commands.rabbitmqConsumer).value;
      && GenerateWorkerConfigurations(s, render, ExecutablePath(inv), single, s.multipleConsumers, s.commands.rabbitmqMultipleConsumer).Some?
      && GenerateWorkerConfigurations(s, render, ExecutablePath(inv), single, s.multipleConsumers, s.commands.rabbitmqMultipleConsumer).value
         == Overwritten(c, AllEntries(s, render, inv).value)
  {
    var exe := ExecutablePath(inv);
    var a := WorkerEntries(s, render, exe, s.consumers, s.commands.rabbitmqConsumer).value;
    var b := WorkerEntries(s, render, exe, s.multipleConsumers, s.commands.rabbitmqMultipleConsumer).value;
    WriteAllAppend(c, a, b);
    WriteAllIsOverwritten(c, a + b);
  }

  /** The cleaned worker directory `build` writes into, when it gets that far. */
  lemma CleanedDirectory(s: Settings, render: Renderer, inv: Invocation, fs: FileSystem)
    requires Materialize(s, render, inv, fs).error.None?
    ensures IsDir(PreparedFileSystem(s, render, fs), s.paths.workerConfigurationDirectory)
    ensures AllEntries(s, render, inv).Some?
    ensures
      var c := RemoveWorkerConfigurations(PreparedFileSystem(s, render, fs), s.paths.workerConfigurationDirectory);
      && Materialize(s, render, inv, fs).fs == Overwritten(c, AllEntries(s, render, inv).value)
      && Directories(Materialize(s, render, inv, fs).fs) == Directories(c)
      && IsDir(c, s.paths.workerConfigurationDirectory)
      && HoldsNoneOf(c, WorkerDirectoryPaths(s.paths.workerConfigurationDirectory))
  {
    var dir := s.paths.workerConfigurationDirectory;
    var prepared := PreparedFileSystem(s, render, fs);
    var c := RemoveWorkerConfigurations(prepared, dir);
    RemoveIsUnlink(prepared, dir);
    GeneratedIsOverwritten(s, render, inv, c);
  }

  /** Writing a set of selected paths into a filesystem holding no
      selected file leaves exactly the written ones as selected files. */
  lemma MirrorOfOverwrite(c: FileSystem, entries: seq<(string, string)>, allowed: iset<string>, selected: iset<string>)
    requires HoldsNoneOf(c, selected)
    requires forall k :: k in Targets(entries) ==> k in selected
    requires forall k :: k in Targets(entries) ==> (k in allowed <==> k !in Directories(c))
    ensures forall k :: (k in Overwrite(c, entries, allowed) && Overwrite(c, entries, allowed)[k].File? && k in selected)
                    <==> k in Targets(entries) && k !in Directories(c)
    ensures forall k :: k in Targets(entries) && k !in Directories(c) ==>
      k in Overwrite(c, entries, allowed) && Overwrite(c, entries, allowed)[k] == File(LastContent(entries, k), true)
  {
  }

  /** Writing the configuration paths into a directory with no `.conf`
      files leaves exactly those paths as worker configurations. */
  lemma MirrorOfWrites(s: Settings, c: FileSystem, entries: seq<(string, string)>)
    requires WellFormedWorkers(s)
    requires IsDir(c, s.paths.workerConfigurationDirectory)
    requires HoldsNoneOf(c, WorkerDirectoryPaths(s.paths.workerConfigurationDirectory))
    requires Targets(entries) == ConfigurationPaths(s)
    ensures forall k :: IsWorkerConfiguration(Overwritten(c, entries), k, s.paths.workerConfigurationDirectory)
                    <==> k in ConfigurationPaths(s) && !IsDir(c, k)
    ensures forall k :: k in ConfigurationPaths(s) && !IsDir(c, k) ==>
      k in Overwritten(c, entries) && Overwritten(c, entries)[k] == File(LastContent(entries, k), true)
  {
    var dir := s.paths.workerConfigurationDirectory;
    var selected := WorkerDirectoryPaths(dir);
    forall k | k in ConfigurationPaths(s)
      ensures k in selected
      ensures k in WritablePaths(c) <==> k !in Directories(c)
      ensures IsDir(c, k) <==> k in Directories(c)
    {
      ConfigurationPathShape(s, k);
      ConfigurationPathWritable(s, c, k);
    }
    MirrorOfOverwrite(c, entries, WritablePaths(c), selected);
    var m := Overwritten(c, entries);
    forall k ensures IsWorkerConfiguration(m, k, dir) <==> k in m && m[k].File? && k in selected {
    }
  }

  /** After a successful `build` the worker directory holds exactly one
      configuration file per configured worker name, except where a
      directory occupies that path; every other `.conf` file that was
      there is gone. Each holds the program rendering written to it last. */
  lemma BuildMirrorsWorkers(s: Settings, render: Renderer, inv: Invocation, fs: FileSystem)
    requires WellFormedWorkers(s)
    requires Materialize(s, render, inv, fs).error.None?
    ensures forall k :: IsWorkerConfiguration(Materialize(s, render, inv, fs).fs, k, s.paths.workerConfigurationDirectory)
                    <==> k in ConfigurationPaths(s) && !IsDir(Materialize(s, render, inv, fs).fs, k)
    ensures AllEntries(s, render, inv).Some?
    ensures forall k :: k in ConfigurationPaths(s) && !IsDir(Materialize(s, render, inv, fs).fs, k) ==>
      && k in Targets(AllEntries(s, render, inv).value)
      && k in Materialize(s, render, inv, fs).fs
      && Materialize(s, render, inv, fs).fs[k] == File(LastContent(AllEntries(s, render, inv).value, k), true)
  {
    var c := RemoveWorkerConfigurations(PreparedFileSystem(s, render, fs), s.paths.workerConfigurationDirectory);
    CleanedDirectory(s, render, inv, fs);
    TargetsOfAllEntries(s, render, inv);
    MirrorOfWrites(s, c, AllEntries(s, render, inv).value);
    var m := Materialize(s, render, inv, fs).fs;
    assert forall k :: IsDir(m, k) == IsDir(c, k);
  }

  // ------------------------------------------------------------ idempotence

  lemma IsDirFollowsDirectories(a: FileSystem, b: FileSystem)
    requires Directories(a) == Directories(b)
    ensures forall p :: IsDir(a, p) == IsDir(b, p)
  {
  }

  /** Directory creation changes nothing once the directory of every path
      exists (or is the empty path, which `mkdir` refuses). */
  lemma {:induction false} CreatePathDirectoriesStable(fs: FileSystem, paths: seq<string>)
    requires forall i :: 0 <= i < |paths| ==> DirectoryOf(paths[i]) == "" || IsDir(fs, DirectoryOf(paths[i]))
    ensures CreatePathDirectories(fs, paths) == fs
    decreases |paths|
  {
    if paths != [] {
      assert EnsureDirectory(fs, paths[0]) == fs;
      assert forall i :: 0 <= i < |paths| - 1 ==> paths[1..][i] == paths[i + 1];
      CreatePathDirectoriesStable(fs, paths[1..]);
    }
  }

  /** No regular file stands where a configured directory has to be created. */
  predicate Unobstructed(s: Settings, fs: FileSystem)
  {
    forall i :: 0 <= i < |PathList(s.paths)| ==> !Blocked(fs, DirectoryOf(PathList(s.paths)[i]))
  }

  /** The filesystem `build` hands to its deletion loop. */
  function Cleaned(s: Settings, render: Renderer, fs: FileSystem): FileSystem
  {
    RemoveWorkerConfigurations(PreparedFileSystem(s, render, fs), s.paths.workerConfigurationDirectory)
  }

  /** Everything after the deletion loop depends on its input only. */
  lemma MaterializeFromCleaned(s: Settings, render: Renderer, inv: Invocation, a: FileSystem, b: FileSystem)
    requires IsDir(PreparedFileSystem(s, render, a), s.paths.workerConfigurationDirectory)
    requires IsDir(PreparedFileSystem(s, render, b), s.paths.workerConfigurationDirectory)
    requires Cleaned(s, render, a) == Cleaned(s, render, b)
    ensures Materialize(s, render, inv, a) == Materialize(s, render, inv, b)
  {
  }

  /** The directories of a successful `build` are those of its first step,
      so a second run's first step changes nothing. */
  lemma DirectoriesSettle(s: Settings, render: Renderer, inv: Invocation, fs: FileSystem)
    requires Unobstructed(s, fs)
    requires Materialize(s, render, inv, fs).error.None?
    ensures Directories(Materialize(s, render, inv, fs).fs) == Directories(CreatePathDirectories(fs, PathList(s.paths)))
    ensures CreatePathDirectories(Materialize(s, render, inv, fs).fs, PathList(s.paths)) == Materialize(s, render, inv, fs).fs
  {
    MaterializeKeepsDirectories(s, render, inv, fs);
    SameDirectoriesSettle(PathList(s.paths), fs, Materialize(s, render, inv, fs).fs);
  }

  /** A filesystem with the directories that creating unobstructed path
      directories gives is left alone by a second creation. */
  lemma SameDirectoriesSettle(paths: seq<string>, fs: FileSystem, m: FileSystem)
    requires forall i :: 0 <= i < |paths| ==> !Blocked(fs, DirectoryOf(paths[i]))
    requires Directories(m) == Directories(CreatePathDirectories(fs, paths))
    ensures CreatePathDirectories(m, paths) == m
  {
    var f1 := CreatePathDirectories(fs, paths);
    IsDirFollowsDirectories(m, f1);
    assert forall i :: 0 <= i < |paths| ==> DirectoryOf(paths[i]) == "" || IsDir(m, DirectoryOf(paths[i]));
    CreatePathDirectoriesStable(m, paths);
  }

  /** Cleaning the result of a successful `build` undoes its writes. */
  lemma CleaningUndoesGeneration(s: Settings, render: Renderer, inv: Invocation, fs: FileSystem)
    requires WellFormedWorkers(s)
    requires Materialize(s, render, inv, fs).error.None?
    ensures RemoveWorkerConfigurations(Materialize(s, render, inv, fs).fs, s.paths.workerConfigurationDirectory)
         == Cleaned(s, render, fs)
  {
    var dir := s.paths.workerConfigurationDirectory;
    var selected := WorkerDirectoryPaths(dir);
    var c1 := Cleaned(s, render, fs);
    var m1 := Materialize(s, render, inv, fs).fs;
    CleanedDirectory(s, render, inv, fs);
    var entries := AllEntries(s, render, inv).value;
    TargetsOfAllEntries(s, render, inv);
    forall k | k in Targets(entries)
      ensures k in selected
      ensures k in WritablePaths(c1) ==> k !in c1
    {
      ConfigurationPathShape(s, k);
      ConfigurationPathWritable(s, c1, k);
    }
    UnlinkUndoesWrites(c1, entries, WritablePaths(c1), selected);
    RemoveIsUnlink(m1, dir);
  }

  /** A file that unlinking and a batch of writes of selected paths made
      disappear was selected. */
  lemma LostFileWasSelected(p: FileSystem, entries: seq<(string, string)>, allowed: iset<string>,
                            selected: iset<string>, k: string)
    requires k in p && p[k].File?
    requires forall j :: j in Targets(entries) ==> j in selected
    requires !(k in Overwrite(Unlink(p, selected), entries, allowed) && Overwrite(Unlink(p, selected), entries, allowed)[k].File?)
    ensures k in selected
  {
  }

  /** The second step of `build` over a filesystem whose directories are settled. */
  lemma PreparedWhenSettled(s: Settings, render: Renderer, fs: FileSystem)
    requires CreatePathDirectories(fs, PathList(s.paths)) == fs
    ensures PreparedFileSystem(s, render, fs)
         == if IsFile(fs, s.paths.configurationFile) then fs else WriteMainConfiguration(s, render, fs)
    ensures Directories(PreparedFileSystem(s, render, fs)) == Directories(fs)
  {
  }

  /** Whenever the main configuration can be written, `build`'s second step
      leaves a regular file there. */
  lemma MainConfigurationPrepared(s: Settings, render: Renderer, fs: FileSystem)
    requires Writable(CreatePathDirectories(fs, PathList(s.paths)), s.paths.configurationFile)
    ensures s.paths.configurationFile in PreparedFileSystem(s, render, fs)
    ensures PreparedFileSystem(s, render, fs)[s.paths.configurationFile].File?
  {
  }

  /** A main configuration that a successful `build` wrote but did not keep
      lies in the worker directory, so the second run's cleaning removes it
      again. */
  lemma MainConfigurationForgotten(s: Settings, render: Renderer, inv: Invocation, fs: FileSystem)
    requires WellFormedWorkers(s)
    requires Materialize(s, render, inv, fs).error.None?
    requires Directories(Materialize(s, render, inv, fs).fs) == Directories(CreatePathDirectories(fs, PathList(s.paths)))
    requires !IsFile(Materialize(s, render, inv, fs).fs, s.paths.configurationFile)
    ensures
      var m1 := Materialize(s, render, inv, fs).fs;
      RemoveWorkerConfigurations(WriteMainConfiguration(s, render, m1), s.paths.workerConfigurationDirectory)
        == RemoveWorkerConfigurations(m1, s.paths.workerConfigurationDirectory)
  {
    var dir := s.paths.workerConfigurationDirectory;
    var cfg := s.paths.configurationFile;
    var selected := WorkerDirectoryPaths(dir);
    var f1 := CreatePathDirectories(fs, PathList(s.paths));
    var m1 := Materialize(s, render, inv, fs).fs;
    var p2 := WriteMainConfiguration(s, render, m1);
    RemoveIsUnlink(p2, dir);
    RemoveIsUnlink(m1, dir);
    WritableFollowsDirectories(m1, f1, cfg);
    if Writable(m1, cfg) {
      assert cfg !in Directories(m1) && !EndsWithSlash(cfg);
      assert cfg in selected by {
        var p1 := PreparedFileSystem(s, render, fs);
        MainConfigurationPrepared(s, render, fs);
        CleanedDirectory(s, render, inv, fs);
        RemoveIsUnlink(p1, dir);
        var entries := AllEntries(s, render, inv).value;
        TargetsOfAllEntries(s, render, inv);
        forall j | j in Targets(entries) ensures j in selected {
          ConfigurationPathShape(s, j);
        }
        LostFileWasSelected(p1, entries, WritablePaths(Cleaned(s, render, fs)), selected, cfg);
      }
      UnlinkForgetsWrite(m1, cfg, File(render(SUPERVISORD_TEMPLATE, MainVariables(s)), true), selected);
    }
  }

  /** A second `build` over the result of a successful one cleans up to the
      same state. */
  lemma CleanedAgain(s: Settings, render: Renderer, inv: Invocation, fs: FileSystem)
    requires WellFormedWorkers(s)
    requires Unobstructed(s, fs)
    requires Materialize(s, render, inv, fs).error.None?
    ensures IsDir(PreparedFileSystem(s, render, Materialize(s, render, inv, fs).fs), s.paths.workerConfigurationDirectory)
    ensures Cleaned(s, render, Materialize(s, render, inv, fs).fs) == Cleaned(s, render, fs)
  {
    var dir := s.paths.workerConfigurationDirectory;
    var m1 := Materialize(s, render, inv, fs).fs;
    var p2 := PreparedFileSystem(s, render, m1);
    DirectoriesSettle(s, render, inv, fs);
    PreparedWhenSettled(s, render, m1);
    assert IsDir(p2, dir) by {
      var p1 := PreparedFileSystem(s, render, fs);
      CleanedDirectory(s, render, inv, fs);
      RemoveIsUnlink(p1, dir);
      assert Directories(p2) == Directories(p1);
      IsDirFollowsDirectories(p2, p1);
    }
    assert Cleaned(s, render, m1) == Cleaned(s, render, fs) by {
      CleaningUndoesGeneration(s, render, inv, fs);
      if !IsFile(m1, s.paths.configurationFile) {
        MainConfigurationForgotten(s, render, inv, fs);
      }
    }
  }

  /** `build` is idempotent: a second successful run over the filesystem the
      first one left behind reproduces it exactly, provided the configured
      worker names are plain file names and no regular file blocks a
      configured directory. */
  lemma BuildIsIdempotent(s: Settings, render: Renderer, inv: Invocation, fs: FileSystem)
    requires WellFormedWorkers(s)
    requires Unobstructed(s, fs)
    requires Materialize(s, render, inv, fs).error.None?
    ensures Materialize(s, render, inv, Materialize(s, render, inv, fs).fs) == Materialize(s, render, inv, fs)
  {
    CleanedDirectory(s, render, inv, fs);
    CleanedAgain(s, render, inv, fs);
    MaterializeFromCleaned(s, render, inv, Materialize(s, render, inv, fs).fs, fs);
  }

  // ---------------------------------------------------- main configuration

  lemma WriteAllKeeps(fs: FileSystem, entries: seq<(string, string)>, k: string)
    requires k !in Targets(entries)
    ensures k in WriteAll(fs, entries) <==> k in fs
    ensures k in fs ==> WriteAll(fs, entries)[k] == fs[k]
  {
    WriteAllIsOverwritten(fs, entries);
  }

  /** The files one generation writes lie in the worker directory. */
  lemma GenerationTargetsSelected(s: Settings, render: Renderer, exe: string, names: seq<string>, template: string, k: string)
    requires WellFormedWorkers(s)
    requires forall n :: n in names ==> n in s.consumers + s.multipleConsumers
    requires k !in WorkerDirectoryPaths(s.paths.workerConfigurationDirectory)
    requires WorkerEntries(s, render, exe, names, template).Some?
    ensures k !in Targets(WorkerEntries(s, render, exe, names, template).value)
  {
    TargetsOfWorkerEntries(s, render, exe, names, template);
    if k in Targets(WorkerEntries(s, render, exe, names, template).value) {
      var n :| n in names && k == s.paths.workerConfigurationDirectory + n + ".conf";
      assert k in ConfigurationPaths(s);
      ConfigurationPathShape(s, k);
    }
  }

  lemma GenerationKeeps(s: Settings, render: Renderer, exe: string, fs: FileSystem, names: seq<string>, template: string, k: string)
    requires WellFormedWorkers(s)
    requires forall n :: n in names ==> n in s.consumers + s.multipleConsumers
    requires k !in WorkerDirectoryPaths(s.paths.workerConfigurationDirectory)
    requires GenerateWorkerConfigurations(s, render, exe, fs, names, template).Some?
    ensures k in GenerateWorkerConfigurations(s, render, exe, fs, names, template).value <==> k in fs
    ensures k in fs ==> GenerateWorkerConfigurations(s, render, exe, fs, names, template).value[k] == fs[k]
  {
    var entries := WorkerEntries(s, render, exe, names, template).value;
    GenerationTargetsSelected(s, render, exe, names, template, k);
    assert GenerateWorkerConfigurations(s, render, exe, fs, names, template) == Some(WriteAll(fs, entries));
    WriteAllKeeps(fs, entries, k);
  }

  /** The filesystem `build` stops at is one of its stages. */
  lemma MaterializeStages(s: Settings, render: Renderer, inv: Invocation, fs: FileSystem)
    ensures
      var dir := s.paths.workerConfigurationDirectory;
      var prepared := PreparedFileSystem(s, render, fs);
      var cleaned := RemoveWorkerConfigurations(prepared, dir);
      var exe := ExecutablePath(inv);
      var single := GenerateWorkerConfigurations(s, render, exe, cleaned, s.consumers, s.commands.rabbitmqConsumer);
      var m := Materialize(s, render, inv, fs).fs;
      && (!IsDir(prepared, dir) ==> m == prepared)
      && (IsDir(prepared, dir) && single.None? ==> m == cleaned)
      && (IsDir(prepared, dir) && single.Some? ==>
            var multiple := GenerateWorkerConfigurations(s, render, exe, single.value, s.multipleConsumers, s.commands.rabbitmqMultipleConsumer);
            m == if multiple.None? then single.value else multiple.value)
  {
    var dir := s.paths.workerConfigurationDirectory;
    var prepared := PreparedFileSystem(s, render, fs);
    var cleaned := RemoveWorkerConfigurations(prepared, dir);
    var exe := ExecutablePath(inv);
    var single := GenerateWorkerConfigurations(s, render, exe, cleaned, s.consumers, s.commands.rabbitmqConsumer);
    if IsDir(prepared, dir) && single.Some? {
      var multiple := GenerateWorkerConfigurations(s, render, exe, single.value, s.multipleConsumers, s.commands.rabbitmqMultipleConsumer);
      assert Materialize(s, render, inv, fs).fs == if multiple.None? then single.value else multiple.value;
    }
  }

  /** The generation stages of `build` keep every entry outside the worker
      directory's `.conf` files, and every directory. */
  lemma GenerationStagesKeep(s: Settings, render: Renderer, inv: Invocation, fs: FileSystem, k: string)
    requires WellFormedWorkers(s)
    requires k !in WorkerDirectoryPaths(s.paths.workerConfigurationDirectory)
    requires IsDir(PreparedFileSystem(s, render, fs), s.paths.workerConfigurationDirectory)
    ensures k in Materialize(s, render, inv, fs).fs <==> k in Cleaned(s, render, fs)
    ensures k in Cleaned(s, render, fs) ==> Materialize(s, render, inv, fs).fs[k] == Cleaned(s, render, fs)[k]
  {
    var cleaned := Cleaned(s, render, fs);
    MaterializeStages(s, render, inv, fs);
    var exe := ExecutablePath(inv);
    var single := GenerateWorkerConfigurations(s, render, exe, cleaned, s.consumers, s.commands.rabbitmqConsumer);
    if single.Some? {
      var multiple := GenerateWorkerConfigurations(s, render, exe, single.value, s.multipleConsumers, s.commands.rabbitmqMultipleConsumer);
      assert (k in single.value <==> k in cleaned) && (k in cleaned ==> single.value[k] == cleaned[k]) by {
        assert forall n :: n in s.consumers ==> n in s.consumers + s.multipleConsumers;
        GenerationKeeps(s, render, exe, cleaned, s.consumers, s.commands.rabbitmqConsumer, k);
      }
      if multiple.Some? {
        assert (k in multiple.value <==> k in single.value) && (k in single.value ==> multiple.value[k] == single.value[k]) by {
          assert forall n :: n in s.multipleConsumers ==> n in s.consumers + s.multipleConsumers;
          GenerationKeeps(s, render, exe, single.value, s.multipleConsumers, s.commands.rabbitmqMultipleConsumer, k);
        }
      }
    }
  }

  lemma PreparedKeepsDirectories(s: Settings, render: Renderer, fs: FileSystem)
    ensures Directories(PreparedFileSystem(s, render, fs)) == Directories(CreatePathDirectories(fs, PathList(s.paths)))
  {
  }

  lemma GenerationKeepsDirectories(s: Settings, render: Renderer, exe: string, fs: FileSystem, names: seq<string>, template: string)
    requires GenerateWorkerConfigurations(s, render, exe, fs, names, template).Some?
    ensures Directories(GenerateWorkerConfigurations(s, render, exe, fs, names, template).value) == Directories(fs)
  {
  }

  /** The directories `build` leaves are those its first step left. */
  lemma MaterializeKeepsDirectories(s: Settings, render: Renderer, inv: Invocation, fs: FileSystem)
    ensures Directories(Materialize(s, render, inv, fs).fs) == Directories(CreatePathDirectories(fs, PathList(s.paths)))
  {
    var dir := s.paths.workerConfigurationDirectory;
    var prepared := PreparedFileSystem(s, render, fs);
    var cleaned := Cleaned(s, render, fs);
    var m := Materialize(s, render, inv, fs).fs;
    PreparedKeepsDirectories(s, render, fs);
    MaterializeStages(s, render, inv, fs);
    if IsDir(prepared, dir) {
      assert Directories(cleaned) == Directories(prepared) by {
        RemoveIsUnlink(prepared, dir);
      }
      var exe := ExecutablePath(inv);
      var single := GenerateWorkerConfigurations(s, render, exe, cleaned, s.consumers, s.commands.rabbitmqConsumer);
      if single.Some? {
        GenerationKeepsDirectories(s, render, exe, cleaned, s.consumers, s.commands.rabbitmqConsumer);
        var multiple := GenerateWorkerConfigurations(s, render, exe, single.value, s.multipleConsumers, s.commands.rabbitmqMultipleConsumer);
        if multiple.Some? {
          GenerationKeepsDirectories(s, render, exe, single.value, s.multipleConsumers, s.commands.rabbitmqMultipleConsumer);
        }
      }
    }
  }

  /** An entry outside the worker directory's `.conf` files is as the
      second step of `build` left it, whatever `build` stops at. */
  lemma MaterializeKeepsPrepared(s: Settings, render: Renderer, inv: Invocation, fs: FileSystem, k: string)
    requires WellFormedWorkers(s)
    requires k !in WorkerDirectoryPaths(s.paths.workerConfigurationDirectory)
    ensures k in Materialize(s, render, inv, fs).fs <==> k in PreparedFileSystem(s, render, fs)
    ensures k in PreparedFileSystem(s, render, fs) ==>
      Materialize(s, render, inv, fs).fs[k] == PreparedFileSystem(s, render, fs)[k]
  {
    var dir := s.paths.workerConfigurationDirectory;
    var prepared := PreparedFileSystem(s, render, fs);
    if IsDir(prepared, dir) {
      RemoveIsUnlink(prepared, dir);
      GenerationStagesKeep(s, render, inv, fs, k);
    } else {
      MaterializeStages(s, render, inv, fs);
    }
  }

  /** `build` keeps an existing main configuration file: it writes one only
      when there is none (unlike `init`), and its cleaning does not touch it
      unless it is itself a `.conf` file directly in the worker directory. */
  lemma BuildKeepsMainConfiguration(s: Settings, render: Renderer, inv: Invocation, fs: FileSystem)
    requires WellFormedWorkers(s)
    requires IsFile(fs, s.paths.configurationFile)
    requires !InWorkerDirectory(s.paths.configurationFile, s.paths.workerConfigurationDirectory)
    ensures s.paths.configurationFile in Materialize(s, render, inv, fs).fs
    ensures Materialize(s, render, inv, fs).fs[s.paths.configurationFile] == fs[s.paths.configurationFile]
  {
    var cfg := s.paths.configurationFile;
    var f1 := CreatePathDirectories(fs, PathList(s.paths));
    assert cfg in Files(fs);
    assert cfg in Files(f1) && Files(f1)[cfg] == fs[cfg];
    MaterializeKeepsPrepared(s, render, inv, fs, cfg);
  }

  lemma DirnameOfNonEmpty(p: string)
    requires p != ""
    ensures Dirname(p) != ""
  {
    var q := TrimTrailingSlashes(p);
    if q != "" {
      match LastIndexOf(q, '/')
      case None =>
      case Some(i) =>
        assert q[..i + 1] != "";
    }
  }

  /** The second step of `build` writes the main configuration when there
      is none and its directory could be created. */
  lemma MainConfigurationWritten(s: Settings, render: Renderer, fs: FileSystem)
    requires s.paths.configurationFile != "" && !EndsWithSlash(s.paths.configurationFile)
    requires !IsFile(fs, s.paths.configurationFile)
    requires !Blocked(fs, Dirname(s.paths.configurationFile))
    requires !IsDir(CreatePathDirectories(fs, PathList(s.paths)), s.paths.configurationFile)
    ensures s.paths.configurationFile in PreparedFileSystem(s, render, fs)
    ensures PreparedFileSystem(s, render, fs)[s.paths.configurationFile]
         == File(render(SUPERVISORD_TEMPLATE, MainVariables(s)), true)
  {
    var cfg := s.paths.configurationFile;
    var paths := PathList(s.paths);
    var f1 := CreatePathDirectories(fs, paths);
    assert DirectoryOf(paths[1]) == Dirname(cfg);
    DirnameOfNonEmpty(cfg);
    assert IsDir(f1, Dirname(cfg));
    assert Writable(f1, cfg);
    assert cfg !in Files(f1);
  }

  /** When there is no main configuration file, `build` renders one into
      place, as long as its directory can be created and no directory ends
      up at its path. */
  lemma BuildCreatesMainConfiguration(s: Settings, render: Renderer, inv: Invocation, fs: FileSystem)
    requires WellFormedWorkers(s)
    requires s.paths.configurationFile != "" && !EndsWithSlash(s.paths.configurationFile)
    requires !IsFile(fs, s.paths.configurationFile)
    requires !Blocked(fs, Dirname(s.paths.configurationFile))
    requires !IsDir(Materialize(s, render, inv, fs).fs, s.paths.configurationFile)
    requires !InWorkerDirectory(s.paths.configurationFile, s.paths.workerConfigurationDirectory)
    ensures s.paths.configurationFile in Materialize(s, render, inv, fs).fs
    ensures Materialize(s, render, inv, fs).fs[s.paths.configurationFile]
         == File(render(SUPERVISORD_TEMPLATE, MainVariables(s)), true)
  {
    MaterializeKeepsDirectories(s, render, inv, fs);
    IsDirFollowsDirectories(Materialize(s, render, inv, fs).fs, CreatePathDirectories(fs, PathList(s.paths)));
    MainConfigurationWritten(s, render, fs);
    MaterializeKeepsPrepared(s, render, inv, fs, s.paths.configurationFile);
  }
}

=== FILE: environment.dfy ===
/** The abstract environment the control plane acts on: a filesystem, the
    operating system's process table, and the log of shell commands issued.
    The daemon's answers (what `supervisorctl status` prints, how the
    `supervisord` launch exits, what successive liveness probes see) are not
    part of the state: they are handed to each operation in an `Env`. */
module Environment {
  import opened Wrappers
  import opened PhpPaths

  /** A filesystem entry. Files created by the control plane are readable. */
  datatype Node = File(content: string, readable: bool) | Dir

  /** Entries keyed by canonical path (no trailing slash). */
  type FileSystem = map<string, Node>

  /** How a command is run: `passthru` (output to the terminal),
      `Process::run` (a non-zero exit is reported, not raised) or
      `Process::mustRun` (a non-zero exit raises). */
  datatype Mode = Passthru | ProcessRun | ProcessMustRun

  datatype Command = Command(line: string, cwd: Option<string>, mode: Mode)

  datatype World = World(fs: FileSystem, processes: set<int>, log: seq<Command>)

  /** What the outside world answers during one operation: the text
      `supervisorctl status` prints, the exit code of a `supervisord` launch,
      and the process table each successive liveness probe of `wait` sees. */
  datatype Env = Env(statusOutput: string, launchExitCode: int, polls: seq<set<int>>)

  datatype Error =
    | ProcessFailed(command: Command, exitCode: int)
    | WorkerDirectoryMissing(path: string)
    | MalformedTemplate(template: string)

  /** Result of a lifecycle operation. `Pending` means the operation was still
      polling when the supplied probe results ran out; an operation that never
      returns is `Pending` for every finite sequence of probes. */
  datatype Outcome =
    | Done(world: World)
    | Failed(world: World, error: Error)
    | Pending(world: World)

  /** The root and the working directory always exist. */
  predicate IsImplicitDirectory(k: string) { k == "/" || k == "." }

  function Directories(fs: FileSystem): set<string>
  {
    set k | k in fs && fs[k].Dir?
  }

  function Files(fs: FileSystem): FileSystem
  {
    map k | k in fs && fs[k].File? :: fs[k]
  }

  /** `is_dir` */
  predicate IsDir(fs: FileSystem, p: string)
  {
    IsImplicitDirectory(Canonical(p)) || Canonical(p) in Directories(fs)
  }

  /** `is_file` */
  predicate IsFile(fs: FileSystem, p: string)
  {
    !EndsWithSlash(p) && p in fs && fs[p].File?
  }

  /** `file_put_contents` succeeds only for a file path whose parent directory
      exists and which is not itself a directory. */
  predicate Writable(fs: FileSystem, p: string)
  {
    p != "" && !EndsWithSlash(p) && IsDir(fs, Dirname(p)) && !IsDir(fs, p)
  }

  /** `file_put_contents`; a failed write leaves the filesystem as it was. */
  function WriteFile(fs: FileSystem, p: string, content: string): (r: FileSystem)
    ensures Directories(r) == Directories(fs)
    ensures Writable(fs, p) ==> p in r && r[p] == File(content, true)
    ensures !Writable(fs, p) ==> r == fs
    ensures forall k :: k != p ==> (k in r <==> k in fs)
    ensures forall k :: k != p && k in fs ==> r[k] == fs[k]
  {
    if Writable(fs, p) then fs[p := File(content, true)] else fs
  }

  /** Writes the entries one after the other, in order. */
  function WriteAll(fs: FileSystem, entries: seq<(string, string)>): (r: FileSystem)
    ensures Directories(r) == Directories(fs)
    decreases |entries|
  {
    if entries == [] then fs
    else
      var last := entries[|entries| - 1];
      WriteFile(WriteAll(fs, entries[..|entries| - 1]), last.0, last.1)
  }

  function Targets(entries: seq<(string, string)>): set<string>
  {
    set i | 0 <= i < |entries| :: entries[i].0
  }

  /** The content of the last entry written to `k`. */
  function LastContent(entries: seq<(string, string)>, k: string): string
    requires k in Targets(entries)
    decreases |entries|
  {
    var last := entries[|entries| - 1];
    if last.0 == k then last.1
    else
      assert k in Targets(entries[..|entries| - 1]) by {
        var i :| 0 <= i < |entries| && entries[i].0 == k;
        assert entries[..|entries| - 1][i].0 == k;
      }
      LastContent(entries[..|entries| - 1], k)
  }

  /** The paths `file_put_contents` can write to. */
  ghost function WritablePaths(fs: FileSystem): iset<string>
  {
    iset p | Writable(fs, p)
  }

  /** Every target in `allowed` holds the content written to it last;
      nothing else changes. */
  ghost function Overwrite(fs: FileSystem, entries: seq<(string, string)>, allowed: iset<string>): FileSystem
  {
    fs + Written(entries, allowed)
  }

  /** The files a batch of writes leaves behind in `allowed`. */
  ghost function Written(entries: seq<(string, string)>, allowed: iset<string>): FileSystem
  {
    map k | k in Targets(entries) && k in allowed :: File(LastContent(entries, k), true)
  }

  /** The reference meaning of a batch of writes: every writable target
      holds the content written to it last, and nothing else changes. */
  ghost function Overwritten(fs: FileSystem, entries: seq<(string, string)>): FileSystem
  {
    Overwrite(fs, entries, WritablePaths(fs))
  }

  lemma WritableFollowsDirectories(fs1: FileSystem, fs2: FileSystem, p: string)
    requires Directories(fs1) == Directories(fs2)
    ensures Writable(fs1, p) == Writable(fs2, p)
  {
  }

  lemma TargetsOfSnoc(init: seq<(string, string)>, last: (string, string))
    ensures Targets(init + [last]) == Targets(init) + {last.0}
  {
    var entries := init + [last];
    forall k | k in Targets(entries) ensures k in Targets(init) + {last.0} {
      var i :| 0 <= i < |entries| && entries[i].0 == k;
      if i < |init| { assert init[i].0 == k; }
    }
    forall k | k in Targets(init) ensures k in Targets(entries) {
      var i :| 0 <= i < |init| && init[i].0 == k;
      assert entries[i].0 == k;
    }
    assert entries[|init|].0 == last.0;
  }

  lemma LastContentSnoc(init: seq<(string, string)>, last: (string, string), k: string)
    requires k in Targets(init + [last])
    ensures k == last.0 ==> LastContent(init + [last], k) == last.1
    ensures k != last.0 ==> k in Targets(init) && LastContent(init + [last], k) == LastContent(init, k)
  {
    var entries := init + [last];
    assert entries[..|entries| - 1] == init;
    assert entries[|entries| - 1] == last;
    TargetsOfSnoc(init, last);
  }

  lemma OverwriteSnoc(fs: FileSystem, init: seq<(string, string)>, last: (string, string), allowed: iset<string>)
    ensures last.0 in allowed ==>
      Overwrite(fs, init + [last], allowed) == Overwrite(fs, init, allowed)[last.0 := File(last.1, true)]
    ensures last.0 !in allowed ==> Overwrite(fs, init + [last], allowed) == Overwrite(fs, init, allowed)
  {
    if last.0 in allowed {
      WrittenSnocAllowed(init, last, allowed);
      UnionUpdate(fs, Written(init, allowed), last.0, File(last.1, true));
    } else {
      WrittenSnocSkipped(init, last, allowed);
    }
  }

  /** A write into `allowed` adds or replaces one file. */
  lemma WrittenSnocAllowed(init: seq<(string, string)>, last: (string, string), allowed: iset<string>)
    requires last.0 in allowed
    ensures Written(init + [last], allowed) == Written(init, allowed)[last.0 := File(last.1, true)]
  {
    var m' := Written(init + [last], allowed);
    var u := Written(init, allowed)[last.0 := File(last.1, true)];
    TargetsOfSnoc(init, last);
    assert m'.Keys == u.Keys;
    forall k | k in u ensures m'[k] == u[k] {
      LastContentSnoc(init, last, k);
    }
  }

  /** A write outside `allowed` changes nothing. */
  lemma WrittenSnocSkipped(init: seq<(string, string)>, last: (string, string), allowed: iset<string>)
    requires last.0 !in allowed
    ensures Written(init + [last], allowed) == Written(init, allowed)
  {
    var m' := Written(init + [last], allowed);
    var m := Written(init, allowed);
    TargetsOfSnoc(init, last);
    assert m'.Keys == m.Keys;
    forall k | k in m ensures m'[k] == m[k] {
      LastContentSnoc(init, last, k);
    }
  }

  lemma UnionUpdate(fs: FileSystem, m: FileSystem, k: string, v: Node)
    ensures fs + m[k := v] == (fs + m)[k := v]
  {
  }

  lemma {:induction false} WriteAllIsOverwritten(fs: FileSystem, entries: seq<(string, string)>)
    ensures WriteAll(fs, entries) == Overwritten(fs, entries)
    decreases |entries|
  {
    if entries == [] {
      assert Targets(entries) == {};
      assert Overwritten(fs, entries) == fs;
    } else {
      var init := entries[..|entries| - 1];
      var last := entries[|entries| - 1];
      assert entries == init + [last];
      WriteAllIsOverwritten(fs, init);
      WritableFollowsDirectories(WriteAll(fs, init), fs, last.0);
      OverwriteSnoc(fs, init, last, WritablePaths(fs));
    }
  }

  /** The directories above a canonical path, as canonical paths. */
  function Ancestors(k: string): set<string>
  {
    set i: nat | 0 < i < |k| && k[i] == '/' :: Canonical(k[..i])
  }

  /** Everything `mkdir($d, …, true)` has to create. */
  function Chain(d: string): set<string>
  {
    {Canonical(d)} + Ancestors(Canonical(d))
  }

  /** A regular file where `mkdir -p` needs a directory makes it fail. */
  predicate Blocked(fs: FileSystem, d: string)
  {
    exists k :: k in Chain(d) && k in fs && fs[k].File?
  }

  /** Whether a file is in the way depends on the regular files only. */
  lemma BlockedFollowsFiles(a: FileSystem, b: FileSystem, d: string)
    requires Files(a) == Files(b)
    ensures Blocked(a, d) <==> Blocked(b, d)
  {
    forall k | k in Chain(d) && k in a && a[k].File? ensures k in b && b[k].File? {
      assert k in Files(a);
    }
    forall k | k in Chain(d) && k in b && b[k].File? ensures k in a && a[k].File? {
      assert k in Files(b);
    }
  }

  /** The directories `mkdir -p` has to add for `d`: its chain, less the
      root and the working directory, which always exist. */
  function ChainToCreate(d: string): set<string>
  {
    set k | k in Chain(d) && !IsImplicitDirectory(k)
  }

  function NewDirectories(d: string): FileSystem
  {
    map k | k in ChainToCreate(d) :: Dir
  }

  /** `mkdir($d, 0755, true)`. It fails, creating nothing, for the empty path
      and when a regular file is in the way; otherwise it adds the chain of
      `d` as directories and nothing else. */
  function MakeDirectories(fs: FileSystem, d: string): (r: FileSystem)
    ensures Files(r) == Files(fs)
    ensures Directories(fs) <= Directories(r) <= Directories(fs) + ChainToCreate(d)
    ensures d != "" && !Blocked(fs, d) ==> IsDir(r, d) && Directories(r) == Directories(fs) + ChainToCreate(d)
    ensures d == "" || Blocked(fs, d) ==> r == fs
  {
    if d == "" || Blocked(fs, d) then fs
    else
      AddedDirectoriesKeepFiles(fs, d);
      AddedDirectoriesAreTheChain(fs, d);
      AddedDirectoriesHoldTarget(fs, d);
      fs + NewDirectories(d)
  }

  /** Adding the chain over no regular file leaves the files as they were. */
  lemma AddedDirectoriesKeepFiles(fs: FileSystem, d: string)
    requires !Blocked(fs, d)
    ensures Files(fs + NewDirectories(d)) == Files(fs)
  {
    var r := fs + NewDirectories(d);
    forall k | k in r && r[k].File? ensures k in fs && fs[k] == r[k] { }
    forall k | k in fs && fs[k].File? ensures k in r && r[k] == fs[k] {
      assert k !in NewDirectories(d);
    }
  }

  /** Over no regular file, the directories added are exactly the chain. */
  lemma AddedDirectoriesAreTheChain(fs: FileSystem, d: string)
    requires !Blocked(fs, d)
    ensures Directories(fs + NewDirectories(d)) == Directories(fs) + ChainToCreate(d)
  {
    var r := fs + NewDirectories(d);
    forall k | k in ChainToCreate(d) ensures k in Directories(r) {
      assert k in NewDirectories(d);
    }
  }

  lemma AddedDirectoriesHoldTarget(fs: FileSystem, d: string)
    ensures IsDir(fs + NewDirectories(d), d)
  {
    assert Canonical(d) in Chain(d);
  }
}

=== FILE: lifecycle.dfy ===
/** The lifecycle manager: materializes the supervisor configuration and one
    configuration file per worker, and drives the daemon through
    start/stop/restart cycles over the abstract `World`. */
module Lifecycle {
  import opened Wrappers
  import opened PhpStrings
  import opened PhpFormat
  import opened PhpPaths
  import opened Environment
  import Supervisor

  /** The `paths` settings, in their configured order. The last entry is the
      file mode, which the schema files under `paths` as well; the
      constructor receives it a second time as `Settings.fileMode`. */
  datatype Paths = Paths(
    workspaceDirectory: string,
    configurationFile: string,
    pidFile: string,
    sockFile: string,
    logFile: string,
    workerConfigurationDirectory: string,
    workerOutputLogFile: string,
    workerErrorLogFile: string,
    fileMode: string)

  function PathList(p: Paths): seq<string>
  {
    [p.workspaceDirectory, p.configurationFile, p.pidFile, p.sockFile, p.logFile,
     p.workerConfigurationDirectory, p.workerOutputLogFile, p.workerErrorLogFile, p.fileMode]
  }

  /** The `commands` settings: two `sprintf` templates taking the message
      bound and the worker name, and the message bound. */
  datatype Commands = Commands(rabbitmqConsumer: string, rabbitmqMultipleConsumer: string, maxMessages: int)

  /** A value handed to the templating engine (a PHP scalar or array). */
  datatype Value = Str(s: string) | Int(i: int) | Bool(b: bool) | Arr(entries: seq<(string, Value)>)

  /** An ordered PHP array with string keys. */
  type Vars = seq<(string, Value)>

  datatype Settings = Settings(
    paths: Paths,
    commands: Commands,
    consumers: seq<string>,          // the keys of `consumers`, in order
    multipleConsumers: seq<string>,  // the keys of `multipleConsumers`, in order
    workerCount: int,
    fileMode: string,
    workerOptions: Vars)

  /** The templating engine, opaque: a template name and variables to text. */
  type Renderer = (string, Vars) -> string

  /** The invoking script as the PHP process sees it: `SCRIPT_FILENAME` and
      the current working directory. */
  datatype Invocation = Invocation(scriptFilename: string, workingDirectory: string)

  const SUPERVISORD_TEMPLATE: string := "RabbitMqSupervisorBundle:Supervisor:supervisord.conf.twig"
  const PROGRAM_TEMPLATE: string := "RabbitMqSupervisorBundle:Supervisor:program.conf.twig"

  /** Defaults of the configuration schema. */
  const DEFAULT_CONSUMER_COMMAND: string := "rabbitmq:consumer -m %1$d %2$s"
  const DEFAULT_MULTIPLE_CONSUMER_COMMAND: string := "rabbitmq:multiple-consumer -m %1$d %2$s"
  const DEFAULT_MAX_MESSAGES: int := 250
  const DEFAULT_WORKER_COUNT: int := 1
  const DEFAULT_FILE_MODE: string := "0700"

  function DefaultWorkerOptions(): Vars
  {
    [("startsecs", Int(2)), ("autorestart", Bool(true)), ("stopsignal", Str("INT")),
     ("stopasgroup", Bool(true)), ("stopwaitsecs", Int(60))]
  }

  // ---------------------------------------------------------------- helpers

  function BoolToString(b: bool): string
  {
    if b then "true" else "false"
  }

  /** `transformBoolsToStrings`: booleans become the words "true"/"false";
      keys, order and every other value are kept. */
  function TransformBoolsToStrings(options: Vars): (r: Vars)
    ensures |r| == |options|
    ensures forall i :: 0 <= i < |r| ==> r[i].0 == options[i].0
    ensures forall i :: 0 <= i < |r| && !options[i].1.Bool? ==> r[i].1 == options[i].1
    ensures forall i :: 0 <= i < |r| && options[i].1.Bool? ==> r[i].1 == Str(BoolToString(options[i].1.b))
  {
    if options == [] then []
    else
      var (key, value) := options[0];
      [(key, if value.Bool? then Str(BoolToString(value.b)) else value)] + TransformBoolsToStrings(options[1..])
  }

  /** The script path written into worker configurations: `SCRIPT_FILENAME`
      if it is absolute, else resolved against the working directory. */
  function ExecutablePath(inv: Invocation): (p: string)
    ensures StrPos(inv.scriptFilename, "/") == Some(0) ==> p == inv.scriptFilename
    ensures StrPos(inv.scriptFilename, "/") != Some(0) ==> p == inv.workingDirectory + "/" + inv.scriptFilename
  {
    if StrPos(inv.scriptFilename, "/") == Some(0) then inv.scriptFilename
    else
      SlashJoin(inv.workingDirectory, inv.scriptFilename);
      Sprintf("%s/%s", [StrArg(inv.workingDirectory), StrArg(inv.scriptFilename)]).value
  }

  /** `sprintf('%s/%s', $dir, $file)` joins the two with one slash. */
  lemma SlashJoin(dir: string, file: string)
    ensures Sprintf("%s/%s", [StrArg(dir), StrArg(file)]) == Some(dir + "/" + file)
  {
    assert NoPercent("/") && NoPercent("");
    TwoStringsParts("/", "", dir, file);
    SlashJoinLiteral();
    SlashJoinLine(dir, file);
  }

  /** `sprintf('%s<b>%s<c>', $x, $y)` for literal `b` and `c`, before the
      empty pieces are dropped. */
  lemma TwoStringsParts(b: string, c: string, x: string, y: string)
    requires NoPercent(b) && NoPercent(c)
    ensures Sprintf("" + "%" + ['s'] + b + "%" + ['s'] + c, [StrArg(x), StrArg(y)])
         == Some("" + x + b + y + c)
  {
    TwoSequential("", 's', b, 's', c, [StrArg(x), StrArg(y)]);
  }

  lemma SlashJoinLiteral()
    ensures "" + "%" + ['s'] + "/" + "%" + ['s'] + "" == "%s/%s"
  {
  }

  lemma SlashJoinLine(dir: string, file: string)
    ensures "" + dir + "/" + file + "" == dir + "/" + file
  {
    assert "" + dir == dir;
    assert dir + "/" + file + "" == dir + "/" + file;
  }

  /** `sprintf('%s%s.conf', $dir, $name)`: the directory is used as given,
      with no separator added. */
  function WorkerFilePath(dir: string, name: string): (p: string)
    ensures p == dir + name + ".conf"
  {
    WorkerFileTemplate(dir, name);
    Sprintf("%s%s.conf", [StrArg(dir), StrArg(name)]).value
  }

  lemma WorkerFileTemplate(dir: string, name: string)
    ensures Sprintf("%s%s.conf", [StrArg(dir), StrArg(name)]) == Some(dir + name + ".conf")
  {
    assert NoPercent("") && NoPercent(".conf");
    TwoStringsParts("", ".conf", dir, name);
    WorkerFileTemplateLiteral();
    WorkerFileLine(dir, name);
  }

  lemma WorkerFileLine(dir: string, name: string)
    ensures "" + dir + "" + name + ".conf" == dir + name + ".conf"
  {
    assert "" + dir == dir;
    assert dir + "" == dir;
  }

  lemma WorkerFileTemplateLiteral()
    ensures "" + "%" + ['s'] + "" + "%" + ['s'] + ".conf" == "%s%s.conf"
  {
  }

  /** The command line of one worker: `sprintf($template, $maxMessages, $name)`. */
  function WorkerCommand(template: string, maxMessages: int, name: string): Option<string>
  {
    Sprintf(template, [IntArg(maxMessages), StrArg(name)])
  }

  function MainVariables(s: Settings): Vars
  {
    [("pidFile", Str(s.paths.pidFile)), ("sockFile", Str(s.paths.sockFile)), ("logFile", Str(s.paths.logFile)),
     ("fileMode", Str(s.fileMode)), ("workerConfigurationDirectory", Str(s.paths.workerConfigurationDirectory))]
  }

  function WorkerVariables(s: Settings, executablePath: string, name: string, command: string): Vars
  {
    [("name", Str(name)), ("command", Str(command)), ("executablePath", Str(executablePath)),
     ("workerOutputLog", Str(s.paths.workerOutputLogFile)), ("workerErrorLog", Str(s.paths.workerErrorLogFile)),
     ("numprocs", Int(s.workerCount)), ("fileMode", Str(s.fileMode)),
     ("options", Arr(TransformBoolsToStrings(s.workerOptions)))]
  }

  // ------------------------------------------------------ configuration files

  /** `generateSupervisorConfiguration`: renders and writes the main file. */
  function WriteMainConfiguration(s: Settings, render: Renderer, fs: FileSystem): FileSystem
  {
    WriteFile(fs, s.paths.configurationFile, render(SUPERVISORD_TEMPLATE, MainVariables(s)))
  }

  /** `init()`: (re)writes the main configuration, whatever is there. */
  function Init(s: Settings, render: Renderer, w: World): (r: World)
    ensures r.processes == w.processes && r.log == w.log
    ensures Writable(w.fs, s.paths.configurationFile) ==>
      s.paths.configurationFile in r.fs && r.fs[s.paths.configurationFile] == File(render(SUPERVISORD_TEMPLATE, MainVariables(s)), true)
    ensures !Writable(w.fs, s.paths.configurationFile) ==> r.fs == w.fs
    ensures forall k :: k != s.paths.configurationFile ==> (k in r.fs <==> k in w.fs)
    ensures forall k :: k != s.paths.configurationFile && k in w.fs ==> r.fs[k] == w.fs[k]
  {
    w.(fs := WriteMainConfiguration(s, render, w.fs))
  }

  /** Creates the directory of one configured path when it is missing. */
  function EnsureDirectory(fs: FileSystem, p: string): (r: FileSystem)
    ensures Files(r) == Files(fs)
    ensures Directories(fs) <= Directories(r) <= Directories(fs) + ChainToCreate(DirectoryOf(p))
    ensures DirectoryOf(p) != "" && !Blocked(fs, DirectoryOf(p)) ==> IsDir(r, DirectoryOf(p))
    ensures IsDir(fs, DirectoryOf(p)) ==> r == fs
    ensures !IsDir(fs, DirectoryOf(p)) && DirectoryOf(p) != "" && !Blocked(fs, DirectoryOf(p)) ==>
      Directories(r) == Directories(fs) + ChainToCreate(DirectoryOf(p))
  {
    var d := DirectoryOf(p);
    if IsDir(fs, d) then fs else MakeDirectories(fs, d)
  }

  /** After going from `before` to `after`, the directory of path `p` exists
      unless it is empty or a regular file was in the way. */
  predicate DirectoryMade(before: FileSystem, after: FileSystem, p: string)
  {
    DirectoryOf(p) != "" && !Blocked(before, DirectoryOf(p)) ==> IsDir(after, DirectoryOf(p))
  }

  /** Every directory on the chains of the paths' directories. */
  function AllChains(paths: seq<string>): set<string>
    decreases |paths|
  {
    if paths == [] then {} else ChainToCreate(DirectoryOf(paths[0])) + AllChains(paths[1..])
  }

  /** `AllChains` is the union of the chains, one per path. */
  lemma {:induction false} AllChainsMeaning(paths: seq<string>, k: string)
    ensures k in AllChains(paths) <==> exists i :: 0 <= i < |paths| && k in ChainToCreate(DirectoryOf(paths[i]))
    decreases |paths|
  {
    if paths != [] {
      AllChainsMeaning(paths[1..], k);
      if k in AllChains(paths[1..]) {
        var i :| 0 <= i < |paths[1..]| && k in ChainToCreate(DirectoryOf(paths[1..][i]));
        assert paths[i + 1] == paths[1..][i];
      }
      if exists i :: 0 <= i < |paths| && k in ChainToCreate(DirectoryOf(paths[i])) {
        var i :| 0 <= i < |paths| && k in ChainToCreate(DirectoryOf(paths[i]));
        if i > 0 { assert paths[1..][i - 1] == paths[i]; }
      }
    }
  }

  /** `createPathDirectories`: afterwards the directory of every configured
      path exists, unless a regular file stands in the way; no file changes,
      and every directory added lies on the chain of a configured path. */
  function CreatePathDirectories(fs: FileSystem, paths: seq<string>): (r: FileSystem)
    ensures Files(r) == Files(fs)
    ensures Directories(fs) <= Directories(r) <= Directories(fs) + AllChains(paths)
    ensures forall i :: 0 <= i < |paths| ==> DirectoryMade(fs, r, paths[i])
    decreases |paths|
  {
    if paths == [] then fs
    else
      var next := EnsureDirectory(fs, paths[0]);
      var r := CreatePathDirectories(next, paths[1..]);
      PathDirectoriesStep(fs, next, r, paths);
      PathDirectoriesBound(fs, next, r, paths);
      r
  }

  /** What the first step and the rest add both lie on the paths' chains. */
  lemma PathDirectoriesBound(fs: FileSystem, next: FileSystem, r: FileSystem, paths: seq<string>)
    requires paths != []
    requires Directories(next) <= Directories(fs) + ChainToCreate(DirectoryOf(paths[0]))
    requires Directories(r) <= Directories(next) + AllChains(paths[1..])
    ensures Directories(r) <= Directories(fs) + AllChains(paths)
  {
    assert AllChains(paths) == ChainToCreate(DirectoryOf(paths[0])) + AllChains(paths[1..]);
  }

  /** One more path: what the first step created survives the rest, and the
      rest sees the same files in the way. */
  lemma PathDirectoriesStep(fs: FileSystem, next: FileSystem, r: FileSystem, paths: seq<string>)
    requires paths != []
    requires Files(next) == Files(fs) && Directories(next) <= Directories(r)
    requires DirectoryMade(fs, next, paths[0])
    requires forall i :: 0 <= i < |paths[1..]| ==> DirectoryMade(next, r, paths[1..][i])
    ensures forall i :: 0 <= i < |paths| ==> DirectoryMade(fs, r, paths[i])
  {
    forall i | 0 <= i < |paths| ensures DirectoryMade(fs, r, paths[i]) {
      if i == 0 {
        DirectoryMadeGrows(fs, next, r, paths[0]);
      } else {
        assert paths[i] == paths[1..][i - 1];
        BlockedFollowsFiles(fs, next, DirectoryOf(paths[i]));
      }
    }
  }

  lemma DirectoryMadeGrows(fs: FileSystem, next: FileSystem, r: FileSystem, p: string)
    requires Directories(next) <= Directories(r)
    requires DirectoryMade(fs, next, p)
    ensures DirectoryMade(fs, r, p)
  {
  }

  /** An entry `build` deletes: a regular file directly inside the worker
      directory whose extension is `conf`. */
  predicate IsWorkerConfiguration(fs: FileSystem, k: string, dir: string)
  {
    k in fs && fs[k].File? && InWorkerDirectory(k, dir)
  }

  /** A path directly inside `dir` whose extension is `conf`. */
  predicate InWorkerDirectory(k: string, dir: string)
  {
    Dirname(k) == Canonical(dir) && Extension(k) == "conf"
  }

  /** The reference meaning of the deletion loop of `build`. */
  function RemoveWorkerConfigurations(fs: FileSystem, dir: string): FileSystem
  {
    map k | k in fs && !IsWorkerConfiguration(fs, k, dir) :: fs[k]
  }

  /** Unlinks, in listing order, every listed entry the test selects. */
  method UnlinkSelected(fs: FileSystem, listing: seq<string>, selected: string -> bool) returns (r: FileSystem)
    requires forall i :: 0 <= i < |listing| ==> listing[i] in fs
    ensures forall k :: k in r <==> k in fs && !(k in listing && selected(k))
    ensures forall k :: k in r ==> r[k] == fs[k]
  {
    r := fs;
    var i := 0;
    while i < |listing|
      invariant 0 <= i <= |listing|
      invariant forall k :: k in r <==> k in fs && !(k in listing[..i] && selected(k))
      invariant forall k :: k in r ==> r[k] == fs[k]
    {
      var entry := listing[i];
      assert listing[..i + 1] == listing[..i] + [entry];
      if selected(entry) {
        r := r - {entry};
      }
      i := i + 1;
    }
    assert listing[..i] == listing;
  }

  /** The deletion loop of `build` as written: walks the directory listing,
      skips directories and files whose extension is not `conf`, and unlinks
      the rest. The listing holds exactly the entries directly inside `dir`. */
  method RemoveListedWorkerConfigurations(fs: FileSystem, dir: string, listing: seq<string>) returns (r: FileSystem)
    requires forall i :: 0 <= i < |listing| ==> listing[i] in fs && Dirname(listing[i]) == Canonical(dir)
    requires forall k :: k in fs && Dirname(k) == Canonical(dir) ==> k in listing
    ensures r == RemoveWorkerConfigurations(fs, dir)
  {
    var selected := (k: string) => k in fs && !fs[k].Dir? && Extension(k) == "conf";
    r := UnlinkSelected(fs, listing, selected);
    var reference := RemoveWorkerConfigurations(fs, dir);
    forall k ensures k in r <==> k in reference {
      if k in listing {
        var j :| 0 <= j < |listing| && listing[j] == k;
      }
    }
  }

  /** The files `generateWorkerConfigurations` writes for one list of names:
      path and rendered content per name, in order. None when the command
      template cannot be formatted, which then fails on the first name. */
  function WorkerEntries(s: Settings, render: Renderer, executablePath: string, names: seq<string>, template: string)
    : (r: Option<seq<(string, string)>>)
    ensures r.None? <==> names != [] && WorkerCommand(template, s.commands.maxMessages, names[0]).None?
    ensures r.Some? ==> |r.value| == |names|
    ensures r.Some? ==> forall i :: 0 <= i < |names| ==>
      && r.value[i].0 == s.paths.workerConfigurationDirectory + names[i] + ".conf"
      && WorkerCommand(template, s.commands.maxMessages, names[i]).Some?
      && r.value[i].1 == render(PROGRAM_TEMPLATE, WorkerVariables(s, executablePath, names[i],
                                 WorkerCommand(template, s.commands.maxMessages, names[i]).value))
    decreases |names|
  {
    if names == [] then Some([])
    else
      var command := WorkerCommand(template, s.commands.maxMessages, names[0]);
      if command.None? then None
      else
        var rest := WorkerEntries(s, render, executablePath, names[1..], template);
        if rest.None? then
          FailureIgnoresValues(template, [IntArg(s.commands.maxMessages), StrArg(names[0])],
                               [IntArg(s.commands.maxMessages), StrArg(names[1])], 0);
          None
        else
          var path := WorkerFilePath(s.paths.workerConfigurationDirectory, names[0]);
          var content := render(PROGRAM_TEMPLATE, WorkerVariables(s, executablePath, names[0], command.value));
          Some([(path, content)] + rest.value)
  }

  /** `generateWorkerConfigurations` for one list of names. */
  function GenerateWorkerConfigurations(s: Settings, render: Renderer, executablePath: string,
                                        fs: FileSystem, names: seq<string>, template: string): (r: Option<FileSystem>)
    ensures r.None? <==> names != [] && WorkerCommand(template, s.commands.maxMessages, names[0]).None?
    ensures r.Some? ==> Directories(r.value) == Directories(fs)
  {
    match WorkerEntries(s, render, executablePath, names, template)
    case None => None
    case Some(entries) => Some(WriteAll(fs, entries))
  }

  /** Steps 1 and 2 of `build`: directories, then the main configuration if
      there is no such file yet. */
  function PreparedFileSystem(s: Settings, render: Renderer, fs: FileSystem): (r: FileSystem)
    ensures Directories(r) == Directories(CreatePathDirectories(fs, PathList(s.paths)))
    ensures IsFile(fs, s.paths.configurationFile) ==> Files(r) == Files(fs)
  {
    var fs1 := CreatePathDirectories(fs, PathList(s.paths));
    assert IsFile(fs, s.paths.configurationFile) ==> IsFile(fs1, s.paths.configurationFile) by {
      if IsFile(fs, s.paths.configurationFile) {
        assert s.paths.configurationFile in Files(fs);
      }
    }
    if IsFile(fs1, s.paths.configurationFile) then fs1 else WriteMainConfiguration(s, render, fs1)
  }

  /** The filesystem side of `build` and the error that cut it short, if any. */
  datatype Materialized = Materialized(fs: FileSystem, error: Option<Error>)

  function Materialize(s: Settings, render: Renderer, inv: Invocation, fs: FileSystem): (m: Materialized)
    ensures m.error.Some? ==> !m.error.value.ProcessFailed?
    ensures m.error == Some(WorkerDirectoryMissing(s.paths.workerConfigurationDirectory))
      <==> !IsDir(PreparedFileSystem(s, render, fs), s.paths.workerConfigurationDirectory)
    ensures IsDir(PreparedFileSystem(s, render, fs), s.paths.workerConfigurationDirectory) ==>
      (m.error.Some? <==>
        (s.consumers != [] && WorkerCommand(s.commands.rabbitmqConsumer, s.commands.maxMessages, s.consumers[0]).None?)
        || (s.multipleConsumers != [] && WorkerCommand(s.commands.rabbitmqMultipleConsumer, s.commands.maxMessages, s.multipleConsumers[0]).None?))
  {
    var dir := s.paths.workerConfigurationDirectory;
    var prepared := PreparedFileSystem(s, render, fs);
    if !IsDir(prepared, dir) then Materialized(prepared, Some(WorkerDirectoryMissing(dir)))
    else
      var cleaned := RemoveWorkerConfigurations(prepared, dir);
      var exe := ExecutablePath(inv);
      match GenerateWorkerConfigurations(s, render, exe, cleaned, s.consumers, s.commands.rabbitmqConsumer)
      case None => Materialized(cleaned, Some(MalformedTemplate(s.commands.rabbitmqConsumer)))
      case Some(single) =>
        match GenerateWorkerConfigurations(s, render, exe, single, s.multipleConsumers, s.commands.rabbitmqMultipleConsumer)
        case None => Materialized(single, Some(MalformedTemplate(s.commands.rabbitmqMultipleConsumer)))
        case Some(all) => Materialized(all, None)
  }

  // --------------------------------------------------------------- lifecycle

  /** `getSupervisorPid`: null unless the PID file is a readable file, else
      its content cast to an integer. */
  function SupervisorPid(s: Settings, w: World): (pid: Option<int>)
    ensures pid.Some? <==> IsFile(w.fs, s.paths.pidFile) && w.fs[s.paths.pidFile].readable
    ensures pid.Some? ==> pid.value == IntCast(w.fs[s.paths.pidFile].content)
  {
    var path := s.paths.pidFile;
    if IsFile(w.fs, path) && w.fs[path].readable then Some(IntCast(w.fs[path].content)) else None
  }

  /** `empty($pid)`: null and 0 both count as "no daemon". */
  predicate IsEmptyPid(pid: Option<int>)
  {
    pid.None? || pid.value == 0
  }

  const PS_HEADER: string := "  PID TTY      STAT   TIME COMMAND"

  /** The lines `ps <pid>` is assumed to print: a header, and one row
      exactly when the process exists. The row's text is illustrative. */
  function PsOutput(processes: set<int>, pid: int): seq<string>
  {
    [PS_HEADER] + (if pid in processes then [IntToString(pid) + " ?        Ss     0:00 supervisord"] else [])
  }

  /** `isProcessRunning`: more than one line of `ps` output. */
  predicate IsProcessRunning(processes: set<int>, pid: int)
    ensures IsProcessRunning(processes, pid) <==> pid in processes
  {
    1 < |PsOutput(processes, pid)|
  }

  /** `sprintf('-%s', $signal)` unless the signal is empty. */
  function SignalArgument(signal: string): (r: string)
    ensures IsFalsy(signal) ==> r == signal
    ensures !IsFalsy(signal) ==> r == "-" + signal
  {
    if IsFalsy(signal) then signal
    else
      SignalTemplate(signal);
      Sprintf("-%s", [StrArg(signal)]).value
  }

  lemma SignalTemplate(signal: string)
    ensures Sprintf("-%s", [StrArg(signal)]) == Some("-" + signal)
  {
    var args := [StrArg(signal)];
    var u := "%s";
    assert "-%s" == "-" + u;
    LiteralPrefix("-", u, args, 0);
    SequentialStep('s', u, args, 0);
    assert u[2..] == "";
    assert signal + "" == signal;
  }

  /** The command `kill` passes to the shell: `sprintf('kill %s %d', …)`. */
  function KillCommand(signal: string, pid: int): (r: Command)
    ensures r.line == "kill " + SignalArgument(signal) + " " + IntToString(pid)
    ensures r.cwd == None && r.mode == Passthru
  {
    KillTemplate(SignalArgument(signal), pid);
    Command(Sprintf("kill %s %d", [StrArg(SignalArgument(signal)), IntArg(pid)]).value, None, Passthru)
  }

  lemma KillTemplateParts(signal: string, pid: int)
    ensures Sprintf("kill %s %d", [StrArg(signal), IntArg(pid)]) == Some("kill " + signal + " " + IntToString(pid) + "")
  {
    var args := [StrArg(signal), IntArg(pid)];
    var t := "kill " + "%" + ['s'] + " " + "%" + ['d'] + "";
    assert Sprintf(t, args) == Some("kill " + signal + " " + IntToString(pid) + "") by {
      TwoSequential("kill ", 's', " ", 'd', "", args);
    }
    assert t == "kill %s %d";
  }

  lemma KillTemplate(signal: string, pid: int)
    ensures Sprintf("kill %s %d", [StrArg(signal), IntArg(pid)]) == Some("kill " + signal + " " + IntToString(pid))
  {
    KillTemplateParts(signal, pid);
    assert "kill " + signal + " " + IntToString(pid) + "" == "kill " + signal + " " + IntToString(pid);
  }

  /** The index of the first probe that no longer sees `pid`. */
  function FirstExit(pid: int, polls: seq<set<int>>): (k: Option<nat>)
    ensures k.Some? ==> k.value < |polls| && !IsProcessRunning(polls[k.value], pid)
    ensures k.Some? ==> forall j :: 0 <= j < k.value ==> IsProcessRunning(polls[j], pid)
    ensures k.None? ==> forall j :: 0 <= j < |polls| ==> IsProcessRunning(polls[j], pid)
    decreases |polls|
  {
    if polls == [] then None
    else if !IsProcessRunning(polls[0], pid) then Some(0)
    else
      match FirstExit(pid, polls[1..])
      case None => None
      case Some(k) => Some(k + 1)
  }

  /** `wait()`: re-reads the PID and polls once per second until the probe no
      longer sees it. `polls[i]` is the process table at the i-th probe. */
  function Wait(s: Settings, w: World, polls: seq<set<int>>): (o: Outcome)
    ensures o.Done? || o.Pending?
    ensures o.world.fs == w.fs && o.world.log == w.log
    ensures IsEmptyPid(SupervisorPid(s, w)) ==> o == Done(w)
    ensures !IsEmptyPid(SupervisorPid(s, w)) && o.Done? ==>
      exists k :: 0 <= k < |polls| && o.world.processes == polls[k]
        && !IsProcessRunning(polls[k], SupervisorPid(s, w).value)
        && forall j :: 0 <= j < k ==> IsProcessRunning(polls[j], SupervisorPid(s, w).value)
    ensures o.Pending? ==> forall j :: 0 <= j < |polls| ==> IsProcessRunning(polls[j], SupervisorPid(s, w).value)
  {
    var pid := SupervisorPid(s, w);
    if IsEmptyPid(pid) then Done(w)
    else
      match FirstExit(pid.value, polls)
      case Some(k) => Done(w.(processes := polls[k]))
      case None => Pending(w)
  }

  /** `kill($signal, $waitForProcessToDisappear)` */
  function Kill(s: Settings, w: World, signal: string, waitForExit: bool, polls: seq<set<int>>): (o: Outcome)
    ensures o.Done? || o.Pending?
    ensures o.world.fs == w.fs
    ensures IsEmptyPid(SupervisorPid(s, w)) || SupervisorPid(s, w).value !in w.processes ==> o == Done(w)
    ensures !IsEmptyPid(SupervisorPid(s, w)) && SupervisorPid(s, w).value in w.processes ==>
      o.world.log == w.log + [KillCommand(signal, SupervisorPid(s, w).value)]
    ensures !waitForExit ==> o.Done? && o.world.processes == w.processes
    ensures waitForExit && !IsEmptyPid(SupervisorPid(s, w)) && o.Done? ==>
      SupervisorPid(s, w).value !in o.world.processes
  {
    var pid := SupervisorPid(s, w);
    if !IsEmptyPid(pid) && IsProcessRunning(w.processes, pid.value) then
      var signalled := w.(log := w.log + [KillCommand(signal, pid.value)]);
      if waitForExit then Wait(s, signalled, polls) else Done(signalled)
    else Done(w)
  }

  /** `stop()`: the default signal, then wait for the daemon to exit. */
  function Stop(s: Settings, w: World, polls: seq<set<int>>): (o: Outcome)
    ensures o.Done? || o.Pending?
    ensures o.world.fs == w.fs
    ensures IsEmptyPid(SupervisorPid(s, w)) || SupervisorPid(s, w).value !in w.processes ==> o == Done(w)
    ensures !IsEmptyPid(SupervisorPid(s, w)) && SupervisorPid(s, w).value in w.processes ==>
      o.world.log == w.log + [KillCommand("", SupervisorPid(s, w).value)]
    ensures !IsEmptyPid(SupervisorPid(s, w)) && o.Done? ==> SupervisorPid(s, w).value !in o.world.processes
  {
    Kill(s, w, "", true, polls)
  }

  /** `hup()`: SIGHUP, without waiting. */
  function Hup(s: Settings, w: World): (o: Outcome)
    ensures o.Done? && o.world.fs == w.fs && o.world.processes == w.processes
    ensures IsEmptyPid(SupervisorPid(s, w)) || SupervisorPid(s, w).value !in w.processes ==> o == Done(w)
    ensures !IsEmptyPid(SupervisorPid(s, w)) && SupervisorPid(s, w).value in w.processes ==>
      o.world.log == w.log + [KillCommand("HUP", SupervisorPid(s, w).value)]
  {
    Kill(s, w, "HUP", false, [])
  }

  /** `start()` */
  function Start(client: Supervisor.Client, w: World, env: Env): (o: Outcome)
    ensures o.Done? || o.Failed?
    ensures o.world.fs == w.fs && o.world.processes == w.processes
    ensures o.world.log == w.log + [Supervisor.ExecuteCommand(client, "status")]
      + (if Supervisor.NeedsLaunch(env.statusOutput) then [Supervisor.LaunchCommand(client)] else [])
    ensures o.Failed? <==> Supervisor.NeedsLaunch(env.statusOutput) && env.launchExitCode != 0
  {
    Supervisor.Run(client, w, env.statusOutput, env.launchExitCode)
  }

  /** `status()` */
  function Status(client: Supervisor.Client, w: World, env: Env): (r: Supervisor.Reply)
    ensures r.output == env.statusOutput
    ensures r.world.fs == w.fs && r.world.processes == w.processes
    ensures r.world.log == w.log + [Supervisor.ExecuteCommand(client, "status")]
  {
    Supervisor.Status(client, w, env.statusOutput)
  }

  /** `build()` */
  function Build(s: Settings, client: Supervisor.Client, render: Renderer, inv: Invocation, env: Env, w: World): (o: Outcome)
    ensures o.Done? || o.Failed?
    ensures o.world.fs == Materialize(s, render, inv, w.fs).fs && o.world.processes == w.processes
    ensures |o.world.log| >= |w.log| && o.world.log[..|w.log|] == w.log
    ensures Materialize(s, render, inv, w.fs).error.Some? ==>
      o == Failed(w.(fs := o.world.fs), Materialize(s, render, inv, w.fs).error.value)
    ensures Materialize(s, render, inv, w.fs).error.None? ==>
      && (o.Failed? <==> Supervisor.NeedsLaunch(env.statusOutput) && env.launchExitCode != 0)
      && o.world.log == w.log + [Supervisor.ExecuteCommand(client, "status")]
           + (if Supervisor.NeedsLaunch(env.statusOutput) then [Supervisor.LaunchCommand(client)] else [])
           + (if o.Done? then [Supervisor.ExecuteCommand(client, "reread"), Supervisor.ExecuteCommand(client, "update")] else [])
  {
    var m := Materialize(s, render, inv, w.fs);
    if m.error.Some? then Failed(w.(fs := m.fs), m.error.value)
    else
      StartAndReloadShape(client, env, w.(fs := m.fs));
      StartAndReload(client, env, w.(fs := m.fs))
  }

  /** The command side of `build`: `start()`, then `reread` and `update`
      unless the launch failed. */
  function StartAndReload(client: Supervisor.Client, env: Env, w: World): Outcome
  {
    var started := Start(client, w, env);
    if started.Done? then Done(Supervisor.ReloadAndUpdate(client, started.world)) else started
  }

  lemma StartAndReloadShape(client: Supervisor.Client, env: Env, w: World)
    ensures var o := StartAndReload(client, env, w);
      && (o.Done? || o.Failed?)
      && o.world.fs == w.fs && o.world.processes == w.processes
      && (o.Failed? <==> Supervisor.NeedsLaunch(env.statusOutput) && env.launchExitCode != 0)
      && o.world.log == w.log + [Supervisor.ExecuteCommand(client, "status")]
           + (if Supervisor.NeedsLaunch(env.statusOutput) then [Supervisor.LaunchCommand(client)] else [])
           + (if o.Done? then [Supervisor.ExecuteCommand(client, "reread"), Supervisor.ExecuteCommand(client, "update")] else [])
      && |o.world.log| >= |w.log| && o.world.log[..|w.log|] == w.log
  {
    var started := Start(client, w, env);
    var o := StartAndReload(client, env, w);
    ReloadAfterStart(client, started, o);
    var launch := if Supervisor.NeedsLaunch(env.statusOutput) then [Supervisor.LaunchCommand(client)] else [];
    var reload := if o.Done? then [Supervisor.ExecuteCommand(client, "reread"), Supervisor.ExecuteCommand(client, "update")] else [];
    assert o.world.log == w.log + [Supervisor.ExecuteCommand(client, "status")] + launch + reload;
    LogExtends(w.log, [Supervisor.ExecuteCommand(client, "status")], launch, reload);
  }

  /** A log grown by appending keeps its old entries as a prefix. */
  lemma LogExtends(log: seq<Command>, a: seq<Command>, b: seq<Command>, c: seq<Command>)
    ensures |log + a + b + c| >= |log| && (log + a + b + c)[..|log|] == log
  {
    assert log + a + b + c == log + (a + b + c);
  }

  /** What the reload step adds to the outcome of `start()`. */
  lemma ReloadAfterStart(client: Supervisor.Client, started: Outcome, o: Outcome)
    requires started.Done? || started.Failed?
    requires o == if started.Done? then Done(Supervisor.ReloadAndUpdate(client, started.world)) else started
    ensures o.Done? <==> started.Done?
    ensures o.world.fs == started.world.fs && o.world.processes == started.world.processes
    ensures o.world.log == started.world.log
      + (if o.Done? then [Supervisor.ExecuteCommand(client, "reread"), Supervisor.ExecuteCommand(client, "update")] else [])
  {
    if started.Done? {
      assert o.world == Supervisor.ReloadAndUpdate(client, started.world);
    }
  }

  /** `rebuild()`: `stop()` then `build()`. */
  function Rebuild(s: Settings, client: Supervisor.Client, render: Renderer, inv: Invocation, env: Env, w: World): (o: Outcome)
    ensures o.Pending? <==> Stop(s, w, env.polls).Pending?
    ensures o.Pending? ==> o.world.fs == w.fs
    ensures !o.Pending? ==> o.world.fs == Materialize(s, render, inv, w.fs).fs
    ensures o.Failed? <==>
      (Stop(s, w, env.polls).Done?
       && (Materialize(s, render, inv, w.fs).error.Some?
           || (Supervisor.NeedsLaunch(env.statusOutput) && env.launchExitCode != 0)))
    ensures Stop(s, w, env.polls).Done? && Materialize(s, render, inv, w.fs).error.Some? ==>
      o.world.log == Stop(s, w, env.polls).world.log
    ensures Stop(s, w, env.polls).Done? && Materialize(s, render, inv, w.fs).error.None? ==>
      o.world.log == Stop(s, w, env.polls).world.log + [Supervisor.ExecuteCommand(client, "status")]
        + (if Supervisor.NeedsLaunch(env.statusOutput) then [Supervisor.LaunchCommand(client)] else [])
        + (if o.Done? then [Supervisor.ExecuteCommand(client, "reread"), Supervisor.ExecuteCommand(client, "update")] else [])
  {
    match Stop(s, w, env.polls)
    case Done(stopped) => Build(s, client, render, inv, env, stopped)
    case other => other
  }

  /** `restart()`: `stop()` then `start()`. */
  function Restart(s: Settings, client: Supervisor.Client, env: Env, w: World): (o: Outcome)
    ensures o.world.fs == w.fs
    ensures o.Pending? <==> Stop(s, w, env.polls).Pending?
    ensures o.Failed? <==> Stop(s, w, env.polls).Done?
                           && Supervisor.NeedsLaunch(env.statusOutput) && env.launchExitCode != 0
  {
    match Stop(s, w, env.polls)
    case Done(stopped) => Start(client, stopped, env)
    case other => other
  }
}

=== FILE: lifecycle_proofs.dfy ===
/** Properties of the lifecycle operations: how worker options reach the
    templates, which command lines are produced, and in which order the
    daemon is signalled, waited for and started again. */
module LifecycleProofs {
  import opened Wrappers
  import opened PhpStrings
  import opened PhpFormat
  import opened Environment
  import opened Lifecycle
  import Supervisor

  // -------------------------------------------------------- worker options

  /** No boolean survives the transformation. */
  lemma TransformLeavesNoBooleans(options: Vars)
    ensures forall i :: 0 <= i < |TransformBoolsToStrings(options)| ==> !TransformBoolsToStrings(options)[i].1.Bool?
  {
  }

  /** Transforming twice is transforming once. */
  lemma TransformIsIdempotent(options: Vars)
    ensures TransformBoolsToStrings(TransformBoolsToStrings(options)) == TransformBoolsToStrings(options)
  {
    var once := TransformBoolsToStrings(options);
    var twice := TransformBoolsToStrings(once);
    assert |twice| == |once|;
    forall i | 0 <= i < |once| ensures twice[i] == once[i] {
      assert !once[i].1.Bool?;
    }
  }

  /** The default options as the program template receives them. */
  lemma DefaultOptionsTransformed()
    ensures TransformBoolsToStrings(DefaultWorkerOptions())
         == [("startsecs", Int(2)), ("autorestart", Str("true")), ("stopsignal", Str("INT")),
             ("stopasgroup", Str("true")), ("stopwaitsecs", Int(60))]
  {
    var r := TransformBoolsToStrings(DefaultWorkerOptions());
    assert |r| == 5;
    assert r[0] == ("startsecs", Int(2));
    assert r[1] == ("autorestart", Str("true"));
    assert r[2] == ("stopsignal", Str("INT"));
    assert r[3] == ("stopasgroup", Str("true"));
    assert r[4] == ("stopwaitsecs", Int(60));
  }

  // -------------------------------------------------------- command lines

  /** An absolute script path is used as it is. */
  lemma AbsoluteScriptPath()
    ensures ExecutablePath(Invocation("/srv/app/bin/console", "/home")) == "/srv/app/bin/console"
  {
    assert OccursAt("/srv/app/bin/console", "/", 0);
  }

  /** A relative script path is resolved against the working directory. */
  lemma RelativeScriptPath()
    ensures ExecutablePath(Invocation("bin/console", "/srv/app")) == "/srv/app/bin/console"
  {
    RelativeExample();
  }

  /** The literal facts the example rests on. */
  lemma RelativeExample()
    ensures StrPos("bin/console", "/") != Some(0)
    ensures "/srv/app" + "/" + "bin/console" == "/srv/app/bin/console"
  {
    assert "bin/console"[0..1] == "b";
    assert !OccursAt("bin/console", "/", 0);
  }

  lemma TwoHundredFifty()
    ensures IntToString(250) == "250"
  {
    assert NatToString(2) == "2";
    assert NatToString(25) == "25";
    assert NatToString(250) == NatToString(25) + [DigitChar(0)];
  }

  /** A command template of the default shape: any literal prefix, then the
      message bound and the worker name separated by a space. */
  lemma BoundThenNameParts(prefix: string, maxMessages: int, name: string)
    requires NoPercent(prefix)
    ensures Sprintf(prefix + "%1$" + ['d'] + " " + "%2$" + ['s'] + "", [IntArg(maxMessages), StrArg(name)])
         == Some(prefix + IntToString(maxMessages) + " " + name + "")
  {
    TwoPositional(prefix, 'd', " ", 's', "", [IntArg(maxMessages), StrArg(name)]);
  }

  lemma BoundThenName(prefix: string, maxMessages: int, name: string)
    requires NoPercent(prefix)
    ensures Sprintf(prefix + "%1$d %2$s", [IntArg(maxMessages), StrArg(name)])
         == Some(prefix + IntToString(maxMessages) + " " + name)
  {
    BoundThenNameParts(prefix, maxMessages, name);
    BoundThenNameTemplate(prefix);
    DropEmpty(prefix + IntToString(maxMessages) + " " + name);
  }

  lemma BoundThenNameTemplate(prefix: string)
    ensures prefix + "%1$" + ['d'] + " " + "%2$" + ['s'] + "" == prefix + "%1$d %2$s"
  {
    assert "%1$" + ['d'] + " " + "%2$" + ['s'] + "" == "%1$d %2$s";
  }

  lemma DropEmpty(x: string)
    ensures x + "" == x
  {
  }

  /** The default consumer command: message bound first, consumer name second. */
  lemma DefaultConsumerCommand(maxMessages: int, name: string)
    ensures WorkerCommand(DEFAULT_CONSUMER_COMMAND, maxMessages, name)
         == Some("rabbitmq:consumer -m " + IntToString(maxMessages) + " " + name)
  {
    var prefix := "rabbitmq:consumer -m ";
    assert DEFAULT_CONSUMER_COMMAND == prefix + "%1$d %2$s";
    BoundThenName(prefix, maxMessages, name);
  }

  /** The default multiple-consumer command. */
  lemma DefaultMultipleConsumerCommand(maxMessages: int, name: string)
    ensures WorkerCommand(DEFAULT_MULTIPLE_CONSUMER_COMMAND, maxMessages, name)
         == Some("rabbitmq:multiple-consumer -m " + IntToString(maxMessages) + " " + name)
  {
    var prefix := "rabbitmq:multiple-consumer -m ";
    assert DEFAULT_MULTIPLE_CONSUMER_COMMAND == prefix + "%1$d %2$s";
    BoundThenName(prefix, maxMessages, name);
  }

  /** With every default in place a consumer runs with at most 250 messages. */
  lemma DefaultsExample(name: string)
    ensures WorkerCommand(DEFAULT_CONSUMER_COMMAND, DEFAULT_MAX_MESSAGES, name)
         == Some("rabbitmq:consumer -m " + "250" + " " + name)
  {
    DefaultConsumerCommand(DEFAULT_MAX_MESSAGES, name);
    TwoHundredFifty();
  }

  /** A custom template of the same shape, filled in for one worker. */
  lemma CustomCommandExample()
    ensures WorkerCommand("consume -m %1$d %2$s", 250, "orders") == Some("consume -m 250 orders")
  {
    var prefix := "consume -m ";
    assert "consume -m %1$d %2$s" == prefix + "%1$d %2$s";
    BoundThenName(prefix, 250, "orders");
    TwoHundredFifty();
    assert prefix + "250" + " " + "orders" == "consume -m 250 orders";
  }

  /** A placeholder for a third argument cannot be filled: `sprintf` gets
      two. */
  lemma ThirdArgumentMissing(maxMessages: int, name: string)
    ensures WorkerCommand("%3$s", maxMessages, name) == None
  {
    assert DigitChar(3) == '3';
    PositionPastArguments(3, 's', "%3$s", [IntArg(maxMessages), StrArg(name)], 0);
  }

  /** Such a template fails the generation of a non-empty list of names,
      and with it `build`; an empty list is never formatted. */
  lemma MalformedTemplateFailsGeneration(s: Settings, render: Renderer, exe: string, names: seq<string>)
    requires names != []
    ensures WorkerEntries(s, render, exe, names, "%3$s").None?
    ensures WorkerEntries(s, render, exe, [], "%3$s") == Some([])
  {
    ThirdArgumentMissing(s.commands.maxMessages, names[0]);
  }

  lemma FortyTwo()
    ensures IntToString(42) == "42"
  {
    assert NatToString(4) == "4";
    assert NatToString(42) == NatToString(4) + [DigitChar(2)];
  }

  lemma HupCommandExample()
    ensures KillCommand("HUP", 42).line == "kill -HUP 42"
  {
    FortyTwo();
    assert !IsFalsy("HUP");
    assert "kill " + ("-" + "HUP") + " " + "42" == "kill -HUP 42";
  }

  /** With the empty signal the argument stays empty, leaving two spaces. */
  lemma DefaultSignalCommandExample()
    ensures KillCommand("", 42).line == "kill  42"
  {
    FortyTwo();
    assert "kill " + "" + " " + "42" == "kill  42";
  }

  // ------------------------------------------------------ signals and waits

  /** The `ps` probe sees the daemon exactly when its PID is in the process table. */
  lemma ProcessRunningIffListed(processes: set<int>, pid: int)
    ensures IsProcessRunning(processes, pid) <==> pid in processes
  {
  }

  /** A PID file whose content casts to 0 (no leading digits, or a literal
      zero) counts as no daemon: nothing is signalled. */
  lemma NonNumericPidMeansNoSignal(s: Settings, w: World, signal: string, waitForExit: bool, polls: seq<set<int>>)
    requires IsFile(w.fs, s.paths.pidFile) && w.fs[s.paths.pidFile].readable
    requires IntCast(w.fs[s.paths.pidFile].content) == 0
    ensures Kill(s, w, signal, waitForExit, polls) == Done(w)
  {
  }

  /** A missing or unreadable PID file gives a null PID: nothing is signalled. */
  lemma MissingPidFileMeansNoSignal(s: Settings, w: World, signal: string, waitForExit: bool, polls: seq<set<int>>)
    requires !(IsFile(w.fs, s.paths.pidFile) && w.fs[s.paths.pidFile].readable)
    ensures SupervisorPid(s, w) == None
    ensures Kill(s, w, signal, waitForExit, polls) == Done(w)
  {
  }

  /** The word "none" in the PID file is one such content. */
  lemma NoneInPidFileMeansNoSignal(s: Settings, w: World, signal: string, waitForExit: bool, polls: seq<set<int>>)
    requires IsFile(w.fs, s.paths.pidFile) && w.fs[s.paths.pidFile].readable
    requires w.fs[s.paths.pidFile].content == "none"
    ensures Kill(s, w, signal, waitForExit, polls) == Done(w)
  {
    IntCastWithoutDigits("none");
    NonNumericPidMeansNoSignal(s, w, signal, waitForExit, polls);
  }

  /** `hup()` signals a live daemon once and returns at once. */
  lemma HupSignalsWithoutWaiting(s: Settings, w: World)
    requires !IsEmptyPid(SupervisorPid(s, w)) && SupervisorPid(s, w).value in w.processes
    ensures Hup(s, w) == Done(w.(log := w.log + [KillCommand("HUP", SupervisorPid(s, w).value)]))
    ensures Hup(s, w).world.log[|w.log|].line == "kill -HUP " + IntToString(SupervisorPid(s, w).value)
  {
    var pid := SupervisorPid(s, w).value;
    var signalled := w.(log := w.log + [KillCommand("HUP", pid)]);
    var o := Kill(s, w, "HUP", false, []);
    assert o.world == signalled by {
      assert o.world.fs == w.fs && o.world.processes == w.processes && o.world.log == signalled.log;
    }
    HupCommandLine(pid);
  }

  lemma HupCommandLine(pid: int)
    ensures KillCommand("HUP", pid).line == "kill -HUP " + IntToString(pid)
  {
    assert SignalArgument("HUP") == "-HUP" by { assert !IsFalsy("HUP"); }
    HupLine(IntToString(pid));
  }

  lemma HupLine(pid: string)
    ensures "kill " + "-HUP" + " " + pid == "kill -HUP " + pid
  {
    assert "kill " + "-HUP" + " " == "kill -HUP ";
  }

  /** `stop()` sends the default signal, and returns only once a probe no
      longer sees the daemon; the probe that saw it gone is the first one. */
  lemma StopWaitsForExit(s: Settings, w: World, polls: seq<set<int>>)
    requires !IsEmptyPid(SupervisorPid(s, w)) && SupervisorPid(s, w).value in w.processes
    requires Stop(s, w, polls).Done?
    ensures Stop(s, w, polls).world.log == w.log + [KillCommand("", SupervisorPid(s, w).value)]
    ensures SupervisorPid(s, w).value !in Stop(s, w, polls).world.processes
    ensures exists k :: 0 <= k < |polls| && Stop(s, w, polls).world.processes == polls[k]
                     && (forall j :: 0 <= j < k ==> SupervisorPid(s, w).value in polls[j])
  {
    var pid := SupervisorPid(s, w).value;
    var signalled := w.(log := w.log + [KillCommand("", pid)]);
    assert SupervisorPid(s, signalled) == SupervisorPid(s, w);
    var k :| 0 <= k < |polls| && Wait(s, signalled, polls).world.processes == polls[k]
      && !IsProcessRunning(polls[k], pid) && forall j :: 0 <= j < k ==> IsProcessRunning(polls[j], pid);
    assert forall j :: 0 <= j < k ==> pid in polls[j];
  }

  /** While every probe still sees the daemon, `stop()` has not returned. */
  lemma StopPendsWhileDaemonLives(s: Settings, w: World, polls: seq<set<int>>)
    requires !IsEmptyPid(SupervisorPid(s, w)) && SupervisorPid(s, w).value in w.processes
    requires forall j :: 0 <= j < |polls| ==> SupervisorPid(s, w).value in polls[j]
    ensures Stop(s, w, polls).Pending?
  {
    var pid := SupervisorPid(s, w).value;
    var signalled := w.(log := w.log + [KillCommand("", pid)]);
    assert SupervisorPid(s, signalled) == SupervisorPid(s, w);
    assert forall j :: 0 <= j < |polls| ==> IsProcessRunning(polls[j], pid);
  }

  // ------------------------------------------------------------- ordering

  /** `stop()` on a live daemon logs the signal and leaves the files alone,
      whether or not the daemon exits while it waits. */
  lemma StopOfLiveDaemon(s: Settings, w: World, polls: seq<set<int>>)
    requires !IsEmptyPid(SupervisorPid(s, w)) && SupervisorPid(s, w).value in w.processes
    ensures Stop(s, w, polls).world.fs == w.fs
    ensures Stop(s, w, polls).world.log == w.log + [KillCommand("", SupervisorPid(s, w).value)]
    ensures Stop(s, w, polls).Done?
         || Stop(s, w, polls) == Pending(w.(log := w.log + [KillCommand("", SupervisorPid(s, w).value)]))
  {
    var pid := SupervisorPid(s, w).value;
    var signalled := w.(log := w.log + [KillCommand("", pid)]);
    assert SupervisorPid(s, signalled) == SupervisorPid(s, w);
  }

  /** `start()` adds to the log and opens with the status query. */
  lemma StartOpensWithStatus(client: Supervisor.Client, w: World, env: Env)
    ensures |Start(client, w, env).world.log| > |w.log|
    ensures Start(client, w, env).world.log[..|w.log|] == w.log
    ensures Start(client, w, env).world.log[|w.log|] == Supervisor.ExecuteCommand(client, "status")
  {
  }

  /** `restart()` signals a live daemon before it asks `supervisorctl` for
      its status, and starts nothing while the daemon has not exited. */
  lemma RestartStopsFirst(s: Settings, client: Supervisor.Client, env: Env, w: World)
    requires !IsEmptyPid(SupervisorPid(s, w)) && SupervisorPid(s, w).value in w.processes
    ensures |Restart(s, client, env, w).world.log| > |w.log|
    ensures Restart(s, client, env, w).world.log[|w.log|] == KillCommand("", SupervisorPid(s, w).value)
    ensures Stop(s, w, env.polls).Done? ==>
      Restart(s, client, env, w).world.log[|w.log| + 1] == Supervisor.ExecuteCommand(client, "status")
    ensures Stop(s, w, env.polls).Pending? ==>
      Restart(s, client, env, w) == Pending(w.(log := w.log + [KillCommand("", SupervisorPid(s, w).value)]))
  {
    var stopped := Stop(s, w, env.polls);
    StopOfLiveDaemon(s, w, env.polls);
    if stopped.Done? {
      var o := Start(client, stopped.world, env);
      assert Restart(s, client, env, w) == o;
      StartOpensWithStatus(client, stopped.world, env);
      assert o.world.log[|w.log|] == o.world.log[..|stopped.world.log|][|w.log|];
    }
  }

  /** `rebuild()` signals a live daemon before it touches the filesystem,
      and does not build while the daemon has not exited. */
  lemma RebuildStopsFirst(s: Settings, client: Supervisor.Client, render: Renderer, inv: Invocation, env: Env, w: World)
    requires !IsEmptyPid(SupervisorPid(s, w)) && SupervisorPid(s, w).value in w.processes
    ensures |Rebuild(s, client, render, inv, env, w).world.log| > |w.log|
    ensures Rebuild(s, client, render, inv, env, w).world.log[|w.log|] == KillCommand("", SupervisorPid(s, w).value)
    ensures Stop(s, w, env.polls).Pending? ==>
      Rebuild(s, client, render, inv, env, w) == Pending(w.(log := w.log + [KillCommand("", SupervisorPid(s, w).value)]))
    ensures Stop(s, w, env.polls).Done? ==>
      Rebuild(s, client, render, inv, env, w).world.fs == Materialize(s, render, inv, w.fs).fs
  {
    var stopped := Stop(s, w, env.polls);
    StopOfLiveDaemon(s, w, env.polls);
    if stopped.Done? {
      var o := Build(s, client, render, inv, env, stopped.world);
      assert Rebuild(s, client, render, inv, env, w) == o;
      assert o.world.log[|w.log|] == o.world.log[..|stopped.world.log|][|w.log|];
    }
  }

  /** With no daemon to stop, `rebuild()` is `build()`. */
  lemma RebuildWithoutDaemonBuilds(s: Settings, client: Supervisor.Client, render: Renderer, inv: Invocation, env: Env, w: World)
    requires IsEmptyPid(SupervisorPid(s, w)) || SupervisorPid(s, w).value !in w.processes
    ensures Rebuild(s, client, render, inv, env, w) == Build(s, client, render, inv, env, w)
  {
  }

  /** With no daemon to stop, `restart()` is `start()`. */
  lemma RestartWithoutDaemonStarts(s: Settings, client: Supervisor.Client, env: Env, w: World)
    requires IsEmptyPid(SupervisorPid(s, w)) || SupervisorPid(s, w).value !in w.processes
    ensures Restart(s, client, env, w) == Start(client, w, env)
  {
  }
}

=== FILE: php_format.dfy ===
/** The subset of PHP's `sprintf` that the control plane uses: literal text,
    `%%`, the sequential directives `%d` and `%s`, and the positional
    directives `%N$d` and `%N$s`. Any other directive, a position of 0 or
    a position past the last argument makes the call fail (None). */
module PhpFormat {
  import opened Wrappers
  import opened PhpStrings

  datatype Arg = IntArg(i: int) | StrArg(s: string)

  predicate IsConversion(c: char) { c == 'd' || c == 's' }

  predicate NoPercent(s: string) { forall i :: 0 <= i < |s| ==> s[i] != '%' }

  /** One argument rendered by one conversion; `%d` casts a string with `(int)`. */
  function Convert(conversion: char, a: Arg): string
    requires IsConversion(conversion)
  {
    match a
    case IntArg(i) => IntToString(i)
    case StrArg(s) => if conversion == 'd' then IntToString(IntCast(s)) else s
  }

  function Prepend(p: string, o: Option<string>): (r: Option<string>)
    ensures r.Some? <==> o.Some?
    ensures r.Some? ==> r.value == p + o.value
  {
    if o.Some? then Some(p + o.value) else None
  }

  /** One lexical unit of a template. */
  datatype Token =
    | Char(c: char)                                // literal text
    | Percent                                      // `%%`
    | Positional(position: nat, conversion: char)  // `%N$d`, `%N$s`
    | Sequential(conversion: char)                 // `%d`, `%s`
    | Unsupported                                  // any other directive

  /** The token at the start of a non-empty template and its length. */
  function NextToken(t: string): (r: (Token, nat))
    requires |t| > 0
    ensures 0 < r.1 <= |t|
    ensures r.0.Positional? || r.0.Sequential? ==> IsConversion(r.0.conversion)
  {
    if t[0] != '%' then (Char(t[0]), 1)
    else if |t| >= 2 && t[1] == '%' then (Percent, 2)
    else
      var digits := LeadingDigits(t[1..]);
      if |digits| > 0 && 1 + |digits| < |t| && t[1 + |digits|] == '$' then
        if 2 + |digits| < |t| && IsConversion(t[2 + |digits|]) then
          (Positional(DigitsValue(digits), t[2 + |digits|]), 3 + |digits|)
        else (Unsupported, 1)
      else if |t| >= 2 && IsConversion(t[1]) then (Sequential(t[1]), 2)
      else (Unsupported, 1)
  }

  /** Formats `t`; `next` is the argument the next sequential directive takes.
      Positional directives do not move it, as in PHP. */
  function FormatFrom(t: string, args: seq<Arg>, next: nat): Option<string>
    decreases |t|
  {
    if |t| == 0 then Some("")
    else
      var (token, length) := NextToken(t);
      var rest := t[length..];
      match token
      case Char(c) => Prepend([c], FormatFrom(rest, args, next))
      case Percent => Prepend("%", FormatFrom(rest, args, next))
      case Positional(position, conversion) =>
        if position == 0 || position > |args| then None
        else Prepend(Convert(conversion, args[position - 1]), FormatFrom(rest, args, next))
      case Sequential(conversion) =>
        if next < |args| then Prepend(Convert(conversion, args[next]), FormatFrom(rest, args, next + 1))
        else None
      case Unsupported => None
  }

  /** `sprintf($template, ...$args)`; None where PHP 8 throws (and where a
      directive lies outside the modelled subset). Text without `%` is
      returned as it is. */
  function Sprintf(template: string, args: seq<Arg>): (r: Option<string>)
    ensures NoPercent(template) ==> r == Some(template)
  {
    LiteralTemplate(template, args);
    FormatFrom(template, args, 0)
  }

  lemma LiteralTemplate(t: string, args: seq<Arg>)
    ensures NoPercent(t) ==> FormatFrom(t, args, 0) == Some(t)
  {
    if NoPercent(t) { LiteralOnly(t, args, 0); }
  }

  /** The argument the next sequential directive takes after `token`. */
  function Advance(token: Token, next: nat): (r: nat)
    ensures r == next || (token.Sequential? && r == next + 1)
  {
    if token.Sequential? then next + 1 else next
  }

  /** Whether `token` can be formatted with `count` arguments when the next
      sequential directive takes argument `next`. */
  predicate Fits(token: Token, count: nat, next: nat)
  {
    match token
    case Char(_) => true
    case Percent => true
    case Positional(position, _) => 0 < position <= count
    case Sequential(_) => next < count
    case Unsupported => false
  }

  /** A template formats exactly when its first token fits and the rest formats. */
  lemma FormatStep(t: string, args: seq<Arg>, next: nat)
    requires |t| > 0
    ensures FormatFrom(t, args, next).Some?
        <==> Fits(NextToken(t).0, |args|, next) && FormatFrom(t[NextToken(t).1..], args, Advance(NextToken(t).0, next)).Some?
  {
  }

  /** Text without `%` is copied verbatim. */
  lemma {:induction false} LiteralPrefix(a: string, t: string, args: seq<Arg>, next: nat)
    requires NoPercent(a)
    ensures FormatFrom(a + t, args, next) == Prepend(a, FormatFrom(t, args, next))
    decreases |a|
  {
    if |a| == 0 {
      assert a + t == t;
      PrependNothing(FormatFrom(t, args, next));
    } else {
      var u := a + t;
      assert u[0] == a[0] && u[1..] == a[1..] + t;
      CharStep(u, args, next);
      LiteralPrefix(a[1..], t, args, next);
      PrependTwice([a[0]], a[1..], FormatFrom(t, args, next));
      assert [a[0]] + a[1..] == a;
    }
  }

  /** A character other than `%` is copied. */
  lemma CharStep(u: string, args: seq<Arg>, next: nat)
    requires |u| > 0 && u[0] != '%'
    ensures FormatFrom(u, args, next) == Prepend([u[0]], FormatFrom(u[1..], args, next))
  {
    assert NextToken(u) == (Char(u[0]), 1);
  }

  lemma PrependNothing(o: Option<string>)
    ensures Prepend("", o) == o
  {
    if o.Some? { assert "" + o.value == o.value; }
  }

  lemma PrependTwice(p: string, q: string, o: Option<string>)
    ensures Prepend(p, Prepend(q, o)) == Prepend(p + q, o)
  {
    if o.Some? { assert p + (q + o.value) == p + q + o.value; }
  }

  /** `%N$c` with a one-digit position N is one positional token. */
  lemma PositionalToken(position: nat, conversion: char, u: string)
    requires 1 <= position <= 9 && IsConversion(conversion)
    requires |u| >= 4 && u[0] == '%' && u[1] == DigitChar(position) && u[2] == '$' && u[3] == conversion
    ensures NextToken(u) == (Positional(position, conversion), 4)
  {
    var tail := u[1..];
    assert tail[0] == DigitChar(position) && tail[1] == '$';
    assert LeadingDigits(tail[1..]) == "";
    var digits := LeadingDigits(tail);
    assert digits == [DigitChar(position)];
    assert DigitsValue(digits) == position by {
      assert digits[..0] == "";
    }
  }

  /** `%N$c` with a one-digit position N renders argument N. */
  lemma PositionalStep(position: nat, conversion: char, u: string, args: seq<Arg>, next: nat)
    requires 1 <= position <= 9 && position <= |args| && IsConversion(conversion)
    requires |u| >= 4 && u[0] == '%' && u[1] == DigitChar(position) && u[2] == '$' && u[3] == conversion
    ensures FormatFrom(u, args, next)
         == Prepend(Convert(conversion, args[position - 1]), FormatFrom(u[4..], args, next))
  {
    PositionalToken(position, conversion, u);
  }

  /** A one-digit position past the last argument makes the call fail. */
  lemma PositionPastArguments(position: nat, conversion: char, u: string, args: seq<Arg>, next: nat)
    requires |args| < position <= 9 && IsConversion(conversion)
    requires |u| >= 4 && u[0] == '%' && u[1] == DigitChar(position) && u[2] == '$' && u[3] == conversion
    ensures FormatFrom(u, args, next) == None
  {
    PositionalToken(position, conversion, u);
  }

  /** `%c` is one sequential token. */
  lemma SequentialToken(conversion: char, u: string)
    requires IsConversion(conversion)
    requires |u| >= 2 && u[0] == '%' && u[1] == conversion
    ensures NextToken(u) == (Sequential(conversion), 2)
  {
    assert u[1..][0] == conversion;
    assert LeadingDigits(u[1..]) == "";
  }

  /** `%c` renders the next sequential argument and moves past it. */
  lemma SequentialStep(conversion: char, u: string, args: seq<Arg>, next: nat)
    requires next < |args| && IsConversion(conversion)
    requires |u| >= 2 && u[0] == '%' && u[1] == conversion
    ensures FormatFrom(u, args, next)
         == Prepend(Convert(conversion, args[next]), FormatFrom(u[2..], args, next + 1))
  {
    SequentialToken(conversion, u);
  }

  lemma LiteralOnly(c: string, args: seq<Arg>, next: nat)
    requires NoPercent(c)
    ensures FormatFrom(c, args, next) == Some(c)
  {
    LiteralPrefix(c, "", args, next);
    assert c + "" == c;
  }

  /** `%N$c` followed by any text, with a one-digit position N. */
  lemma PositionalThen(position: nat, conversion: char, rest: string, args: seq<Arg>, next: nat)
    requires 1 <= position <= 9 && position <= |args| && IsConversion(conversion)
    ensures FormatFrom(['%', DigitChar(position), '$', conversion] + rest, args, next)
         == Prepend(Convert(conversion, args[position - 1]), FormatFrom(rest, args, next))
  {
    var u := ['%', DigitChar(position), '$', conversion] + rest;
    assert u[4..] == rest;
    PositionalStep(position, conversion, u, args, next);
  }

  /** `%1$c` renders the first argument. */
  lemma FirstPositional(conversion: char, rest: string, args: seq<Arg>, next: nat)
    requires IsConversion(conversion) && |args| >= 1
    ensures FormatFrom("%1$" + [conversion] + rest, args, next)
         == Prepend(Convert(conversion, args[0]), FormatFrom(rest, args, next))
  {
    assert DigitChar(1) == '1';
    assert "%1$" + [conversion] + rest == ['%', '1', '$', conversion] + rest;
    PositionalThen(1, conversion, rest, args, next);
  }

  /** `%2$c` renders the second argument. */
  lemma SecondPositional(conversion: char, rest: string, args: seq<Arg>, next: nat)
    requires IsConversion(conversion) && |args| >= 2
    ensures FormatFrom("%2$" + [conversion] + rest, args, next)
         == Prepend(Convert(conversion, args[1]), FormatFrom(rest, args, next))
  {
    assert DigitChar(2) == '2';
    assert "%2$" + [conversion] + rest == ['%', '2', '$', conversion] + rest;
    PositionalThen(2, conversion, rest, args, next);
  }

  // Associativity of concatenation, in the shapes the template and
  // command-line proofs need.

  lemma Regroup(a: string, b: string, c: string)
    ensures a + (b + c) == a + b + c
  {
  }

  lemma RegroupTemplate(a: string, p1: string, c1: string, b: string, p2: string, c2: string, c: string)
    ensures a + p1 + c1 + b + p2 + c2 + c == a + (p1 + c1 + (b + (p2 + c2 + c)))
  {
  }

  lemma RegroupOutput(a: string, x1: string, b: string, x2: string, c: string)
    ensures a + (x1 + (b + (x2 + c))) == a + x1 + b + x2 + c
  {
  }

  lemma TwoPositionalNested(a: string, c1: char, b: string, c2: char, c: string, args: seq<Arg>)
    requires NoPercent(a) && NoPercent(b) && NoPercent(c)
    requires IsConversion(c1) && IsConversion(c2) && |args| >= 2
    ensures FormatFrom(a + ("%1$" + [c1] + (b + ("%2$" + [c2] + c))), args, 0)
         == Some(a + (Convert(c1, args[0]) + (b + (Convert(c2, args[1]) + c))))
  {
    var d2 := "%2$" + [c2] + c;
    assert FormatFrom(d2, args, 0) == Some(Convert(c2, args[1]) + c) by {
      LiteralOnly(c, args, 0);
      SecondPositional(c2, c, args, 0);
    }
    LiteralPrefix(b, d2, args, 0);
    FirstPositional(c1, b + d2, args, 0);
    LiteralPrefix(a, "%1$" + [c1] + (b + d2), args, 0);
  }

  /** A template with two positional directives, `a%1$c1 b%2$c2 c`, renders
      the first argument then the second, whatever the literal text around them. */
  lemma TwoPositional(a: string, c1: char, b: string, c2: char, c: string, args: seq<Arg>)
    requires NoPercent(a) && NoPercent(b) && NoPercent(c)
    requires IsConversion(c1) && IsConversion(c2) && |args| >= 2
    ensures Sprintf(a + "%1$" + [c1] + b + "%2$" + [c2] + c, args)
         == Some(a + Convert(c1, args[0]) + b + Convert(c2, args[1]) + c)
  {
    TwoPositionalNested(a, c1, b, c2, c, args);
    RegroupTemplate(a, "%1$", [c1], b, "%2$", [c2], c);
    RegroupOutput(a, Convert(c1, args[0]), b, Convert(c2, args[1]), c);
  }

  lemma TwoSequentialNested(a: string, c1: char, b: string, c2: char, c: string, args: seq<Arg>)
    requires NoPercent(a) && NoPercent(b) && NoPercent(c)
    requires IsConversion(c1) && IsConversion(c2) && |args| >= 2
    ensures FormatFrom(a + ("%" + [c1] + (b + ("%" + [c2] + c))), args, 0)
         == Some(a + (Convert(c1, args[0]) + (b + (Convert(c2, args[1]) + c))))
  {
    var rest, out := b + ("%" + [c2] + c), b + (Convert(c2, args[1]) + c);
    LastSequentialSegment(b, c2, c, args);
    SequentialSegment(a, c1, rest, args, 0, 1, out);
  }

  lemma LastSequentialSegment(b: string, c2: char, c: string, args: seq<Arg>)
    requires NoPercent(b) && NoPercent(c)
    requires IsConversion(c2) && |args| >= 2
    ensures FormatFrom(b + ("%" + [c2] + c), args, 1) == Some(b + (Convert(c2, args[1]) + c))
  {
    LiteralOnly(c, args, 2);
    SequentialSegment(b, c2, c, args, 1, 2, c);
  }

  /** Literal text, then `%c`, then a rest that renders to `out`. */
  lemma SequentialSegment(a: string, conversion: char, rest: string, args: seq<Arg>, next: nat, after: nat, out: string)
    requires NoPercent(a) && next < |args| && IsConversion(conversion) && after == next + 1
    requires FormatFrom(rest, args, after) == Some(out)
    ensures FormatFrom(a + ("%" + [conversion] + rest), args, next) == Some(a + (Convert(conversion, args[next]) + out))
  {
    SequentialThen(conversion, rest, args, next);
    LiteralPrefix(a, "%" + [conversion] + rest, args, next);
  }

  /** `%c` followed by any text. */
  lemma SequentialThen(conversion: char, rest: string, args: seq<Arg>, next: nat)
    requires next < |args| && IsConversion(conversion)
    ensures FormatFrom("%" + [conversion] + rest, args, next)
         == Prepend(Convert(conversion, args[next]), FormatFrom(rest, args, next + 1))
  {
    var u := "%" + [conversion] + rest;
    assert u[2..] == rest;
    SequentialStep(conversion, u, args, next);
  }

  /** A template with two sequential directives, `a%c1 b%c2 c`, renders the
      first two arguments in order. */
  lemma TwoSequential(a: string, c1: char, b: string, c2: char, c: string, args: seq<Arg>)
    requires NoPercent(a) && NoPercent(b) && NoPercent(c)
    requires IsConversion(c1) && IsConversion(c2) && |args| >= 2
    ensures Sprintf(a + "%" + [c1] + b + "%" + [c2] + c, args)
         == Some(a + Convert(c1, args[0]) + b + Convert(c2, args[1]) + c)
  {
    TwoSequentialNested(a, c1, b, c2, c, args);
    RegroupTemplate(a, "%", [c1], b, "%", [c2], c);
    RegroupOutput(a, Convert(c1, args[0]), b, Convert(c2, args[1]), c);
  }

  /** Whether a template can be formatted depends on the number of arguments
      only, never on their values: a template that fails for one worker name
      fails for every name. */
  lemma {:induction false} FailureIgnoresValues(t: string, args1: seq<Arg>, args2: seq<Arg>, next: nat)
    requires |args1| == |args2|
    ensures FormatFrom(t, args1, next).Some? <==> FormatFrom(t, args2, next).Some?
    decreases |t|
  {
    if |t| > 0 {
      var (token, length) := NextToken(t);
      FailureIgnoresValues(t[length..], args1, args2, Advance(token, next));
      FormatStep(t, args1, next);
      FormatStep(t, args2, next);
    }
  }

  /** A field width lies outside the modelled subset, so `%5d` fails here
      although PHP 8 would pad the number: this is a limit of the model,
      not of PHP. */
  lemma WidthIsUnsupported()
    ensures Sprintf("%5d", [IntArg(1)]) == None
  {
    var t := "%5d";
    assert t[1..] == "5d";
    assert LeadingDigits("5d"[1..]) == "";
    assert LeadingDigits("5d") == "5";
    assert NextToken(t).0 == Unsupported;
  }

  /** Too few arguments make the call fail. */
  lemma MissingArgumentFails()
    ensures Sprintf("%2$s", [StrArg("x")]) == None
  {
    assert DigitChar(2) == '2';
    PositionPastArguments(2, 's', "%2$s", [StrArg("x")], 0);
  }
}

=== FILE: php_paths.dfy ===
/** Path strings as PHP's `dirname`, `substr($path, -1)` and
    `SplFileInfo::getExtension` see them. Paths are plain strings; nothing
    here touches a filesystem. */
module PhpPaths {
  import opened Wrappers

  predicate EndsWithSlash(p: string) { |p| > 0 && p[|p| - 1] == '/' }

  /** `p` without the run of `/` it ends with. */
  function TrimTrailingSlashes(p: string): (q: string)
    ensures q <= p && !EndsWithSlash(q)
    ensures forall i :: |q| <= i < |p| ==> p[i] == '/'
    decreases |p|
  {
    if EndsWithSlash(p) then TrimTrailingSlashes(p[..|p| - 1]) else p
  }

  /** The key under which a directory or file is known: trailing slashes
      dropped, except that a path made only of slashes is the root. */
  function Canonical(p: string): (k: string)
    ensures !EndsWithSlash(p) ==> k == p
    ensures k == "/" || !EndsWithSlash(k)
  {
    if p != "" && TrimTrailingSlashes(p) == "" then "/" else TrimTrailingSlashes(p)
  }

  /** The index of the last occurrence of `c` in `p`. */
  function LastIndexOf(p: string, c: char): (r: Option<nat>)
    ensures r.Some? ==> r.value < |p| && p[r.value] == c
    ensures r.Some? ==> forall j :: r.value < j < |p| ==> p[j] != c
    ensures r.None? ==> forall j :: 0 <= j < |p| ==> p[j] != c
    decreases |p|
  {
    if |p| == 0 then None
    else if p[|p| - 1] == c then Some(|p| - 1)
    else LastIndexOf(p[..|p| - 1], c)
  }

  /** PHP's `dirname` on a POSIX system. */
  function Dirname(p: string): (r: string)
    ensures r == "" <==> p == ""
    ensures r == "." || r <= p
    ensures r == "/" || !EndsWithSlash(r)
  {
    var q := TrimTrailingSlashes(p);
    if p == "" then ""
    else if q == "" then "/"
    else match LastIndexOf(q, '/')
      case None => "."
      case Some(i) => Canonical(q[..i + 1])
  }

  /** The last path component. */
  function Basename(p: string): (b: string)
    ensures forall j :: 0 <= j < |b| ==> b[j] != '/'
  {
    match LastIndexOf(p, '/')
    case None => p
    case Some(i) => p[i + 1..]
  }

  /** `SplFileInfo::getExtension`: what follows the last `.` of the last
      component, or "" when that component has no `.`. */
  function Extension(p: string): (r: string)
    ensures forall j :: 0 <= j < |r| ==> r[j] != '.' && r[j] != '/'
    ensures r != "" ==> |r| < |Basename(p)| && Basename(p)[|Basename(p)| - |r| - 1] == '.'
                        && Basename(p)[|Basename(p)| - |r|..] == r
  {
    var b := Basename(p);
    match LastIndexOf(b, '.')
    case None => ""
    case Some(i) => b[i + 1..]
  }

  /** The directory a configured path stands for: the path itself when it
      ends with `/`, its `dirname` otherwise. */
  function DirectoryOf(p: string): (d: string)
    ensures EndsWithSlash(p) ==> d == p
    ensures !EndsWithSlash(p) ==> d == Dirname(p)
  {
    if EndsWithSlash(p) then p else Dirname(p)
  }

  /** The last `c` of a string is found after a prefix that ends with it. */
  lemma LastIndexAfterPrefix(d: string, n: string, c: char)
    requires |d| > 0 && d[|d| - 1] == c
    requires forall j :: 0 <= j < |n| ==> n[j] != c
    ensures LastIndexOf(d + n, c) == Some(|d| - 1)
  {
    assert (d + n)[|d| - 1] == c;
    assert forall j :: |d| - 1 < j < |d + n| ==> (d + n)[j] == n[j - |d|];
  }

  /** A file `<dir><name>.conf`, for a directory path ending with `/` and a
      name without `/`, lies directly in that directory and has the
      extension `conf`. */
  lemma ConfigurationFileInDirectory(dir: string, name: string)
    requires EndsWithSlash(dir)
    requires forall j :: 0 <= j < |name| ==> name[j] != '/'
    ensures Dirname(dir + name + ".conf") == Canonical(dir)
    ensures Extension(dir + name + ".conf") == "conf"
    ensures !EndsWithSlash(dir + name + ".conf")
  {
    var file := name + ".conf";
    assert dir + name + ".conf" == dir + file;
    NameWithExtension(name);
    DirnameInDirectory(dir, file);
    ExtensionInDirectory(dir, name);
  }

  lemma NameWithExtension(name: string)
    requires forall j :: 0 <= j < |name| ==> name[j] != '/'
    ensures forall j :: 0 <= j < |name + ".conf"| ==> (name + ".conf")[j] != '/'
  {
    var file := name + ".conf";
    forall j | 0 <= j < |file| ensures file[j] != '/' {
      if j < |name| { assert file[j] == name[j]; }
    }
  }

  lemma ExtensionInDirectory(dir: string, name: string)
    requires EndsWithSlash(dir)
    requires forall j :: 0 <= j < |name| ==> name[j] != '/'
    ensures Extension(dir + name + ".conf") == "conf"
  {
    var p := dir + name + ".conf";
    var file := name + ".conf";
    assert p == dir + file;
    NameWithExtension(name);
    LastIndexAfterPrefix(dir, file, '/');
    assert Basename(p) == file;
    var ext := "conf";
    assert file == (name + ".") + ext;
    LastIndexAfterPrefix(name + ".", ext, '.');
    assert file[|name| + 1..] == ext;
  }

  /** The `dirname` of a file named directly inside a directory is that
      directory, without its trailing slash unless it is the root. */
  lemma DirnameInDirectory(dir: string, file: string)
    requires EndsWithSlash(dir)
    requires |file| > 0 && forall j :: 0 <= j < |file| ==> file[j] != '/'
    ensures Dirname(dir + file) == Canonical(dir)
  {
    var p := dir + file;
    assert p[|p| - 1] == file[|file| - 1];
    assert TrimTrailingSlashes(p) == p;
    LastIndexAfterPrefix(dir, file, '/');
    assert p[..|dir|] == dir;
  }

  /** A name without `/` lies in the current directory. */
  lemma DirnameOfBareName(file: string)
    requires |file| > 0 && forall j :: 0 <= j < |file| ==> file[j] != '/'
    ensures Dirname(file) == "."
  {
    assert TrimTrailingSlashes(file) == file;
  }

  lemma DirnameExamples()
    ensures Dirname("/srv/app/supervisord.conf") == "/srv/app"
    ensures Dirname("/srv") == "/"
    ensures Dirname("supervisord.conf") == "."
    ensures DirectoryOf("/srv/app/worker/") == "/srv/app/worker/"
  {
    DirnameOfNestedExample();
    DirnameOfTopLevelExample();
    DirnameOfBareNameExample();
  }

  lemma DirnameOfBareNameExample()
    ensures Dirname("supervisord.conf") == "."
  {
    DirnameOfBareName("supervisord.conf");
  }

  lemma DirnameOfNestedExample()
    ensures Dirname("/srv/app/supervisord.conf") == "/srv/app"
  {
    assert "/srv/app/supervisord.conf" == "/srv/app/" + "supervisord.conf";
    DirnameInDirectory("/srv/app/", "supervisord.conf");
    assert TrimTrailingSlashes("/srv/app/") == TrimTrailingSlashes("/srv/app") == "/srv/app";
  }

  lemma DirnameOfTopLevelExample()
    ensures Dirname("/srv") == "/"
  {
    assert "/srv" == "/" + "srv";
    DirnameInDirectory("/", "srv");
    assert TrimTrailingSlashes("/") == "";
  }
}

=== FILE: php_strings.dfy ===
/** The string primitives of the PHP runtime that the control plane leans on:
    rendering and parsing of integers (`%d`, `(int)`), substring search
    (`strpos`) and the truthiness of strings (`empty`, `?:`). */
module PhpStrings {
  import opened Wrappers

  /** Bounds of a PHP integer on a 64-bit platform. */
  const PHP_INT_MAX: int := 0x7FFF_FFFF_FFFF_FFFF
  const PHP_INT_MIN: int := -0x8000_0000_0000_0000

  predicate IsDigit(c: char) { '0' <= c <= '9' }

  predicate AllDigits(s: string) { forall i :: 0 <= i < |s| ==> IsDigit(s[i]) }

  function DigitChar(d: nat): (c: char)
    requires d < 10
    ensures IsDigit(c)
  {
    (48 + d) as char
  }

  function DigitValue(c: char): (d: nat)
    requires IsDigit(c)
    ensures d < 10
  {
    (c as int) - 48
  }

  /** Decimal digits of `n`, without leading zeros. */
  function NatToString(n: nat): (s: string)
    ensures |s| > 0 && AllDigits(s)
    decreases n
  {
    if n < 10 then [DigitChar(n)] else NatToString(n / 10) + [DigitChar(n % 10)]
  }

  /** How PHP renders an integer (`%d`, string interpolation). */
  function IntToString(i: int): (s: string)
    ensures |s| > 0
    ensures i < 0 <==> s[0] == '-'
    ensures i >= 0 ==> AllDigits(s)
  {
    if i < 0 then "-" + NatToString(-i) else NatToString(i)
  }

  /** The value of a string of decimal digits. */
  function DigitsValue(s: string): nat
    requires AllDigits(s)
    decreases |s|
  {
    if |s| == 0 then 0 else 10 * DigitsValue(s[..|s| - 1]) + DigitValue(s[|s| - 1])
  }

  lemma {:induction false} NatToStringRoundTrip(n: nat)
    ensures DigitsValue(NatToString(n)) == n
    decreases n
  {
    var s := NatToString(n);
    if n < 10 {
      assert DigitValue(DigitChar(n)) == n;
    } else {
      NatToStringRoundTrip(n / 10);
      assert s[..|s| - 1] == NatToString(n / 10);
      assert DigitValue(DigitChar(n % 10)) == n % 10;
    }
  }

  /** The longest prefix of `s` made of decimal digits. */
  function LeadingDigits(s: string): (p: string)
    ensures p <= s && AllDigits(p)
    ensures |p| < |s| ==> !IsDigit(s[|p|])
  {
    if |s| > 0 && IsDigit(s[0]) then [s[0]] + LeadingDigits(s[1..]) else ""
  }

  lemma LeadingDigitsOfDigits(s: string)
    requires AllDigits(s)
    ensures LeadingDigits(s) == s
  {
  }

  /** The characters PHP skips before a number: space, \t, \n, \r, \v, \f. */
  predicate IsWhitespace(c: char)
  {
    c == ' ' || c == '\t' || c == '\n' || c == '\r' || c == 11 as char || c == 12 as char
  }

  function SkipWhitespace(s: string): (t: string)
    ensures |t| <= |s| && t == s[|s| - |t|..]
    ensures |t| > 0 ==> !IsWhitespace(t[0])
    ensures forall i :: 0 <= i < |s| - |t| ==> IsWhitespace(s[i])
  {
    if |s| > 0 && IsWhitespace(s[0]) then
      var t := SkipWhitespace(s[1..]);
      assert forall i :: 1 <= i < |s| - |t| ==> s[i] == s[1..][i - 1];
      t
    else s
  }

  /** PHP integers saturate when a numeric string overflows them. */
  function Saturate(i: int): (r: int)
    ensures PHP_INT_MIN <= r <= PHP_INT_MAX
    ensures PHP_INT_MIN <= i <= PHP_INT_MAX ==> r == i
    ensures i > PHP_INT_MAX ==> r == PHP_INT_MAX
    ensures i < PHP_INT_MIN ==> r == PHP_INT_MIN
  {
    if i > PHP_INT_MAX then PHP_INT_MAX else if i < PHP_INT_MIN then PHP_INT_MIN else i
  }

  /** The `(int)` cast of a string: leading whitespace, an optional sign and
      the longest run of digits that follows; anything else yields 0. */
  function IntCast(s: string): (r: int)
    ensures PHP_INT_MIN <= r <= PHP_INT_MAX
  {
    Saturate(SignedValue(SkipWhitespace(s)))
  }

  /** The value of an optional sign and the digits that follow it, unbounded. */
  function SignedValue(t: string): int
  {
    if |t| > 0 && t[0] == '-' then -(DigitsValue(LeadingDigits(t[1..])) as int)
    else if |t| > 0 && t[0] == '+' then DigitsValue(LeadingDigits(t[1..]))
    else DigitsValue(LeadingDigits(t))
  }

  /** Rendering an integer and casting it back is the identity. */
  lemma IntCastRoundTrip(i: int)
    requires PHP_INT_MIN <= i <= PHP_INT_MAX
    ensures IntCast(IntToString(i)) == i
  {
    SignedValueOfIntToString(i);
    IntCastOfTrimmed(IntToString(i), i);
  }

  /** A rendered integer has no whitespace to skip and its sign and digits
      read back as the integer, whatever its size. */
  lemma SignedValueOfIntToString(i: int)
    ensures SkipWhitespace(IntToString(i)) == IntToString(i)
    ensures SignedValue(IntToString(i)) == i
  {
    var s := IntToString(i);
    NoWhitespaceToSkip(s);
    if i < 0 {
      NegativeSignedValue(NatToString(-i));
      NatToStringRoundTrip(-i);
    } else {
      DigitsSignedValue(s);
      NatToStringRoundTrip(i);
    }
  }

  lemma DigitsSignedValue(d: string)
    requires |d| > 0 && AllDigits(d)
    ensures SignedValue(d) == DigitsValue(d)
  {
    assert IsDigit(d[0]);
    LeadingDigitsOfDigits(d);
  }

  lemma NegativeSignedValue(d: string)
    requires AllDigits(d)
    ensures SignedValue("-" + d) == -(DigitsValue(d) as int)
  {
    var s := "-" + d;
    assert s[0] == '-' && s[1..] == d;
    LeadingDigitsOfDigits(d);
  }

  /** A string with no leading whitespace casts to its signed value, saturated. */
  lemma IntCastOfTrimmed(s: string, v: int)
    requires SkipWhitespace(s) == s && SignedValue(s) == v
    ensures IntCast(s) == Saturate(v)
  {
  }

  lemma NoWhitespaceToSkip(s: string)
    requires |s| > 0 && !IsWhitespace(s[0])
    ensures SkipWhitespace(s) == s
  {
  }

  /** A string with no leading number casts to 0, which `empty()` treats as absent. */
  lemma IntCastWithoutDigits(s: string)
    requires |s| > 0 && !IsWhitespace(s[0]) && !IsDigit(s[0]) && s[0] != '-' && s[0] != '+'
    ensures IntCast(s) == 0
  {
    assert SkipWhitespace(s) == s;
    assert LeadingDigits(s) == "";
  }

  /** A trailing newline, as a PID file usually has, is ignored. */
  lemma IntCastIgnoresTrailingNewline()
    ensures IntCast("42\n") == 42
  {
    NoWhitespaceToSkip("42\n");
    var t := "42\n";
    assert LeadingDigits(t[2..]) == "";
    assert LeadingDigits(t[1..]) == "2";
    assert LeadingDigits(t) == "42";
    assert "42"[..1] == "4";
    assert DigitsValue("4") == 4;
    assert DigitsValue("42") == 42;
    assert IntCast(t) == Saturate(DigitsValue("42"));
  }

  /** Skipping whitespace in front of `s` gives what skipping it in `s` gives. */
  lemma {:induction false} SkipWhitespacePrefix(w: string, s: string)
    requires forall i :: 0 <= i < |w| ==> IsWhitespace(w[i])
    ensures SkipWhitespace(w + s) == SkipWhitespace(s)
    decreases |w|
  {
    if |w| == 0 {
      assert w + s == s;
    } else {
      assert (w + s)[1..] == w[1..] + s;
      SkipWhitespacePrefix(w[1..], s);
    }
  }

  /** Whitespace in front of a number does not change its `(int)` cast. */
  lemma IntCastSkipsLeadingWhitespace(w: string, s: string)
    requires forall i :: 0 <= i < |w| ==> IsWhitespace(w[i])
    ensures IntCast(w + s) == IntCast(s)
  {
    SkipWhitespacePrefix(w, s);
  }

  predicate OccursAt(haystack: string, needle: string, k: nat)
  {
    k + |needle| <= |haystack| && haystack[k..k + |needle|] == needle
  }

  predicate Contains(haystack: string, needle: string)
  {
    exists k: nat | k <= |haystack| :: OccursAt(haystack, needle, k)
  }

  /** `strpos`: the offset of the FIRST occurrence of `needle`, or `false` (None). */
  function StrPos(haystack: string, needle: string): (r: Option<nat>)
    ensures r.Some? ==> OccursAt(haystack, needle, r.value)
    ensures r.Some? ==> forall k: nat :: k < r.value ==> !OccursAt(haystack, needle, k)
    ensures r.None? <==> !Contains(haystack, needle)
  {
    StrPosFrom(haystack, needle, 0)
  }

  function StrPosFrom(haystack: string, needle: string, from: nat): (r: Option<nat>)
    ensures r.Some? ==> from <= r.value && OccursAt(haystack, needle, r.value)
    ensures r.Some? ==> forall k: nat :: from <= k < r.value ==> !OccursAt(haystack, needle, k)
    ensures r.None? ==> forall k: nat :: from <= k ==> !OccursAt(haystack, needle, k)
    decreases |haystack| - from
  {
    if from + |needle| > |haystack| then None
    else if OccursAt(haystack, needle, from) then Some(from)
    else StrPosFrom(haystack, needle, from + 1)
  }

  /** PHP's `empty()` and boolean conversion of a string: only "" and "0" are falsy. */
  predicate IsFalsy(s: string)
  {
    s == "" || s == "0"
  }
}

=== FILE: supervisor.dfy ===
/** The control client: runs `supervisorctl` subcommands against the daemon
    and launches `supervisord` itself when the status output says the daemon
    cannot be reached. */
module Supervisor {
  import opened Wrappers
  import opened PhpStrings
  import opened PhpFormat
  import opened Environment

  /** The status-output markers of an unreachable daemon. */
  const SOCKET_MISSING: string := "sock no such file"
  const CONNECTION_REFUSED: string := "refused connection"

  /** The command lines, as `sprintf` templates. */
  const EXECUTE_TEMPLATE: string := "supervisorctl%1$s %2$s"
  const LAUNCH_TEMPLATE: string := "supervisord%1$s%2$s"

  datatype Client = Client(applicationDirectory: string, configurationParameter: string, identifierParameter: string)

  /** The reply to a query: the world after it, and the text returned. */
  datatype Reply = Reply(world: World, output: string)

  /** A constructor argument is used when PHP deems it true: neither null,
      nor "", nor "0". */
  predicate IsTruthy(v: Option<string>)
  {
    v.Some? && !IsFalsy(v.value)
  }

  /** The ` --flag=value` suffix of a command line, or nothing. */
  function Parameter(flag: string, v: Option<string>): (p: string)
    ensures p == "" <==> !IsTruthy(v)
    ensures IsTruthy(v) ==> p == " --" + flag + "=" + v.value
  {
    if IsTruthy(v) then " --" + flag + "=" + v.value else ""
  }

  lemma ClientFlags(configuration: Option<string>, identifier: Option<string>)
    ensures configuration.Some? ==>
      " --" + "configuration" + "=" + configuration.value == " --configuration=" + configuration.value
    ensures identifier.Some? ==>
      " --" + "identifier" + "=" + identifier.value == " --identifier=" + identifier.value
  {
    if configuration.Some? { ConfigurationFlag(configuration.value); }
    if identifier.Some? { IdentifierFlag(identifier.value); }
  }

  lemma ConfigurationFlag(value: string)
    ensures " --" + "configuration" + "=" + value == " --configuration=" + value
  {
    assert " --" + "configuration" + "=" == " --configuration=";
  }

  lemma IdentifierFlag(value: string)
    ensures " --" + "identifier" + "=" + value == " --identifier=" + value
  {
    assert " --" + "identifier" + "=" == " --identifier=";
  }

  function NewClient(applicationDirectory: string, configuration: Option<string>, identifier: Option<string>): (c: Client)
    ensures c.applicationDirectory == applicationDirectory
    ensures c.configurationParameter == "" <==> !IsTruthy(configuration)
    ensures IsTruthy(configuration) ==> c.configurationParameter == " --configuration=" + configuration.value
    ensures c.identifierParameter == "" <==> !IsTruthy(identifier)
    ensures IsTruthy(identifier) ==> c.identifierParameter == " --identifier=" + identifier.value
  {
    ClientFlags(configuration, identifier);
    Client(applicationDirectory, Parameter("configuration", configuration), Parameter("identifier", identifier))
  }

  /** The `supervisorctl` process `execute($cmd)` creates: run in the
      application directory, and not raising on a non-zero exit. */
  function ExecuteCommand(c: Client, cmd: string): (r: Command)
    ensures r.line == "supervisorctl" + c.configurationParameter + " " + cmd
    ensures r.cwd == Some(c.applicationDirectory)
    ensures r.mode == ProcessRun
  {
    ExecuteTemplate(c.configurationParameter, cmd);
    var line := Sprintf(EXECUTE_TEMPLATE, [StrArg(c.configurationParameter), StrArg(cmd)]);
    Command(line.value, Some(c.applicationDirectory), ProcessRun)
  }

  /** The `supervisord` process `run()` creates when the daemon is absent:
      same directory, configuration and identifier, and a non-zero exit raises. */
  function LaunchCommand(c: Client): (r: Command)
    ensures r.line == "supervisord" + c.configurationParameter + c.identifierParameter
    ensures r.cwd == Some(c.applicationDirectory)
    ensures r.mode == ProcessMustRun
  {
    LaunchTemplate(c.configurationParameter, c.identifierParameter);
    var line := Sprintf(LAUNCH_TEMPLATE, [StrArg(c.configurationParameter), StrArg(c.identifierParameter)]);
    Command(line.value, Some(c.applicationDirectory), ProcessMustRun)
  }

  lemma ExecuteTemplate(configuration: string, cmd: string)
    ensures Sprintf(EXECUTE_TEMPLATE, [StrArg(configuration), StrArg(cmd)])
         == Some("supervisorctl" + configuration + " " + cmd)
  {
    var args := [StrArg(configuration), StrArg(cmd)];
    var t := "supervisorctl" + "%1$" + ['s'] + " " + "%2$" + ['s'] + "";
    assert Sprintf(t, args) == Some("supervisorctl" + configuration + " " + cmd + "") by {
      TwoPositional("supervisorctl", 's', " ", 's', "", args);
    }
    assert t == EXECUTE_TEMPLATE;
    assert "supervisorctl" + configuration + " " + cmd + "" == "supervisorctl" + configuration + " " + cmd;
  }

  lemma LaunchTemplateParts(configuration: string, identifier: string)
    ensures Sprintf(LAUNCH_TEMPLATE, [StrArg(configuration), StrArg(identifier)])
         == Some("supervisord" + configuration + "" + identifier + "")
  {
    var args := [StrArg(configuration), StrArg(identifier)];
    var t := "supervisord" + "%1$" + ['s'] + "" + "%2$" + ['s'] + "";
    assert Sprintf(t, args) == Some("supervisord" + configuration + "" + identifier + "") by {
      TwoPositional("supervisord", 's', "", 's', "", args);
    }
    assert t == LAUNCH_TEMPLATE;
  }

  lemma LaunchTemplate(configuration: string, identifier: string)
    ensures Sprintf(LAUNCH_TEMPLATE, [StrArg(configuration), StrArg(identifier)])
         == Some("supervisord" + configuration + identifier)
  {
    LaunchTemplateParts(configuration, identifier);
    assert "supervisord" + configuration + "" + identifier + "" == "supervisord" + configuration + identifier;
  }

  function Issue(w: World, cmd: Command): World
  {
    w.(log := w.log + [cmd])
  }

  /** `execute($cmd)`: issues one `supervisorctl` command and waits for it. */
  function Execute(c: Client, w: World, cmd: string): (r: World)
    ensures r.fs == w.fs && r.processes == w.processes
    ensures r.log == w.log + [ExecuteCommand(c, cmd)]
  {
    Issue(w, ExecuteCommand(c, cmd))
  }

  /** `reloadAndUpdate()` */
  function ReloadAndUpdate(c: Client, w: World): (r: World)
    ensures r.fs == w.fs && r.processes == w.processes
    ensures r.log == w.log + [ExecuteCommand(c, "reread"), ExecuteCommand(c, "update")]
  {
    Execute(c, Execute(c, w, "reread"), "update")
  }

  /** `strpos($haystack, $marker)` as a condition: false when the marker is
      absent, and also when it is found at offset 0. */
  predicate FoundAfterStart(haystack: string, marker: string)
  {
    var pos := StrPos(haystack, marker);
    pos.Some? && pos.value > 0
  }

  predicate NeedsLaunch(statusOutput: string)
  {
    FoundAfterStart(statusOutput, SOCKET_MISSING) || FoundAfterStart(statusOutput, CONNECTION_REFUSED)
  }

  /** `run()`: asks for the status and launches the daemon when the output
      says it is unreachable. */
  function Run(c: Client, w: World, statusOutput: string, launchExitCode: int): (o: Outcome)
    ensures o.Done? || o.Failed?
    ensures o.world.fs == w.fs && o.world.processes == w.processes
    ensures o.world.log == w.log + [ExecuteCommand(c, "status")] + (if NeedsLaunch(statusOutput) then [LaunchCommand(c)] else [])
    ensures o.Failed? <==> NeedsLaunch(statusOutput) && launchExitCode != 0
    ensures o.Failed? ==> o.error == ProcessFailed(LaunchCommand(c), launchExitCode)
  {
    var w1 := Execute(c, w, "status");
    if NeedsLaunch(statusOutput) then
      var w2 := Issue(w1, LaunchCommand(c));
      if launchExitCode == 0 then Done(w2) else Failed(w2, ProcessFailed(LaunchCommand(c), launchExitCode))
    else Done(w1)
  }

  /** `status()`: the status output, returned verbatim. */
  function Status(c: Client, w: World, statusOutput: string): (r: Reply)
    ensures r.output == statusOutput
    ensures r.world == Execute(c, w, "status")
  {
    Reply(Execute(c, w, "status"), statusOutput)
  }
}

=== FILE: supervisor_proofs.dfy ===
/** Properties of the `supervisorctl` client: when `run()` launches the
    daemon, and how constructor arguments reach the command lines. */
module SupervisorProofs {
  import opened Wrappers
  import opened PhpStrings
  import opened PhpFormat
  import opened Environment
  import opened Supervisor

  /** The launch test in words: the marker occurs somewhere, but not at the
      very start of the output. */
  lemma FoundAfterStartMeaning(haystack: string, marker: string)
    ensures FoundAfterStart(haystack, marker) <==> Contains(haystack, marker) && !OccursAt(haystack, marker, 0)
  {
    var pos := StrPos(haystack, marker);
    if pos.Some? && pos.value == 0 {
      assert OccursAt(haystack, marker, 0);
    }
    if Contains(haystack, marker) && !OccursAt(haystack, marker, 0) {
      assert pos.Some?;
    }
  }

  /** A marker after some text that does not start like it triggers the launch. */
  lemma MarkerAfterText(text: string, marker: string, rest: string)
    requires |text| > 0 && |marker| > 0 && text[0] != marker[0]
    ensures FoundAfterStart(text + marker + rest, marker)
  {
    var h := text + marker + rest;
    assert h[|text|..|text| + |marker|] == marker;
    assert OccursAt(h, marker, |text|);
    assert h[0] == text[0];
    FoundAfterStartMeaning(h, marker);
  }

  /** A marker at the very start of the output is not noticed. */
  lemma MarkerAtStartIgnored(marker: string, rest: string)
    requires |marker| > 0
    ensures !FoundAfterStart(marker + rest, marker)
  {
    var h := marker + rest;
    assert h[0..|marker|] == marker;
    assert OccursAt(h, marker, 0);
    FoundAfterStartMeaning(h, marker);
  }

  /** What `supervisorctl` prints when the socket is missing makes `run()`
      launch the daemon, unless the output starts with the message itself;
      the launch is the only command after the status query. */
  lemma MissingSocketLaunches(c: Client, w: World, socketPath: string, launchExitCode: int)
    requires !OccursAt(socketPath + SOCKET_MISSING, SOCKET_MISSING, 0)
    ensures NeedsLaunch(socketPath + SOCKET_MISSING)
    ensures Run(c, w, socketPath + SOCKET_MISSING, launchExitCode).world.log
         == w.log + [ExecuteCommand(c, "status"), LaunchCommand(c)]
  {
    var h := socketPath + SOCKET_MISSING;
    assert h[|socketPath|..|socketPath| + |SOCKET_MISSING|] == SOCKET_MISSING;
    assert OccursAt(h, SOCKET_MISSING, |socketPath|);
    FoundAfterStartMeaning(h, SOCKET_MISSING);
  }

  /** Output that starts with the refused-connection text and does not
      mention the missing socket is taken for a running daemon. */
  lemma RefusedAtStartDoesNotLaunch(c: Client, w: World, rest: string, launchExitCode: int)
    requires !Contains(CONNECTION_REFUSED + rest, SOCKET_MISSING)
    ensures !NeedsLaunch(CONNECTION_REFUSED + rest)
    ensures Run(c, w, CONNECTION_REFUSED + rest, launchExitCode) == Done(Execute(c, w, "status"))
  {
    MarkerAtStartIgnored(CONNECTION_REFUSED, rest);
  }

  /** Output with neither marker never launches and never fails. */
  lemma NoMarkerNoLaunch(c: Client, w: World, statusOutput: string, launchExitCode: int)
    requires !Contains(statusOutput, SOCKET_MISSING) && !Contains(statusOutput, CONNECTION_REFUSED)
    ensures Run(c, w, statusOutput, launchExitCode) == Done(Execute(c, w, "status"))
  {
  }

  /** PHP treats "0" as false, so a configuration path "0" is dropped. */
  lemma ZeroConfigurationDropped(dir: string)
    ensures NewClient(dir, Some("0"), None).configurationParameter == ""
    ensures ExecuteCommand(NewClient(dir, Some("0"), None), "status").line == "supervisorctl status"
  {
    assert !IsTruthy(Some("0"));
    var c := NewClient(dir, Some("0"), None);
    assert "supervisorctl" + c.configurationParameter + " " + "status" == "supervisorctl status";
  }

  /** The configuration reaches `supervisorctl`; the identifier does not. */
  lemma ClientCommandLines(dir: string, configuration: string, identifier: string, cmd: string)
    requires !IsFalsy(configuration) && !IsFalsy(identifier)
    ensures ExecuteCommand(NewClient(dir, Some(configuration), Some(identifier)), cmd).line
         == "supervisorctl" + " --configuration=" + configuration + " " + cmd
    ensures LaunchCommand(NewClient(dir, Some(configuration), Some(identifier))).line
         == "supervisord" + " --configuration=" + configuration + " --identifier=" + identifier
  {
    var c := NewClient(dir, Some(configuration), Some(identifier));
    var conf := " --configuration=" + configuration;
    var id := " --identifier=" + identifier;
    assert c.configurationParameter == conf && c.identifierParameter == id;
    Regroup("supervisorctl", " --configuration=", configuration);
    Regroup("supervisord", " --configuration=", configuration);
  }
}

=== FILE: worker_proofs.dfy ===
/** Which program rendering each worker configuration file holds after
    `build`: consumers are formatted with the consumer template, multiple
    consumers with the multiple-consumer template, and a name configured as
    both ends up with the multiple-consumer file, which is written second. */
module WorkerProofs {
  import opened Wrappers
  import opened PhpPaths
  import opened Environment
  import opened Lifecycle
  import opened BuildProofs

  /** The content last written to a target is that of an entry for it after
      which no entry targets it again. */
  lemma {:induction false} LastContentIsWritten(entries: seq<(string, string)>, k: string)
    requires k in Targets(entries)
    ensures exists i :: 0 <= i < |entries| && entries[i].0 == k && LastContent(entries, k) == entries[i].1
                      && (forall j :: i < j < |entries| ==> entries[j].0 != k)
    decreases |entries|
  {
    var n := |entries|;
    if entries[n - 1].0 != k {
      var init := entries[..n - 1];
      assert k in Targets(init) by {
        var i :| 0 <= i < n && entries[i].0 == k;
        assert init[i].0 == k;
      }
      LastContentIsWritten(init, k);
      var i :| 0 <= i < |init| && init[i].0 == k && LastContent(init, k) == init[i].1
               && (forall j :: i < j < |init| ==> init[j].0 != k);
      assert entries[i] == init[i];
      assert forall j :: i < j < n - 1 ==> entries[j] == init[j];
    }
  }

  /** Of two batches written one after the other, the second decides the
      content of every path it writes. */
  lemma {:induction false} LastContentOfAppend(a: seq<(string, string)>, b: seq<(string, string)>, k: string)
    requires k in Targets(a + b)
    ensures k in Targets(b) ==> LastContent(a + b, k) == LastContent(b, k)
    ensures k !in Targets(b) ==> k in Targets(a) && LastContent(a + b, k) == LastContent(a, k)
    decreases |b|
  {
    TargetsOfAppend(a, b);
    if b == [] {
      assert a + b == a;
    } else {
      var init := b[..|b| - 1];
      var last := b[|b| - 1];
      assert b == init + [last];
      assert a + b == (a + init) + [last];
      TargetsOfSnoc(init, last);
      LastContentSnoc(a + init, last, k);
      if k == last.0 {
        LastContentSnoc(init, last, k);
      } else {
        LastContentOfAppend(a, init, k);
        if k in Targets(b) {
          LastContentSnoc(init, last, k);
        }
      }
    }
  }

  /** Different worker names give different configuration paths. */
  lemma ConfigurationPathInjective(dir: string, a: string, b: string)
    requires dir + a + ".conf" == dir + b + ".conf"
    ensures a == b
  {
    var p := dir + a + ".conf";
    assert |a| == |b|;
    assert p[|dir|..|dir| + |a|] == a;
    assert (dir + b + ".conf")[|dir|..|dir| + |b|] == b;
  }

  /** The file one generation writes for a name holds the program rendering
      for that name and its formatted command. */
  lemma WorkerEntryContent(s: Settings, render: Renderer, exe: string, names: seq<string>, template: string, n: string)
    requires WorkerEntries(s, render, exe, names, template).Some?
    requires n in names
    ensures WorkerCommand(template, s.commands.maxMessages, n).Some?
    ensures s.paths.workerConfigurationDirectory + n + ".conf" in Targets(WorkerEntries(s, render, exe, names, template).value)
    ensures LastContent(WorkerEntries(s, render, exe, names, template).value, s.paths.workerConfigurationDirectory + n + ".conf")
         == render(PROGRAM_TEMPLATE, WorkerVariables(s, exe, n, WorkerCommand(template, s.commands.maxMessages, n).value))
  {
    var e := WorkerEntries(s, render, exe, names, template).value;
    var dir := s.paths.workerConfigurationDirectory;
    var path := dir + n + ".conf";
    TargetsOfWorkerEntries(s, render, exe, names, template);
    LastContentIsWritten(e, path);
    var i :| 0 <= i < |e| && e[i].0 == path && LastContent(e, path) == e[i].1;
    ConfigurationPathInjective(dir, names[i], n);
  }

  /** A name that is only a consumer gets the consumer template's command. */
  lemma BuildWritesConsumerCommand(s: Settings, render: Renderer, inv: Invocation, fs: FileSystem, n: string)
    requires WellFormedWorkers(s)
    requires Materialize(s, render, inv, fs).error.None?
    requires n in s.consumers && n !in s.multipleConsumers
    requires !IsDir(Materialize(s, render, inv, fs).fs, s.paths.workerConfigurationDirectory + n + ".conf")
    ensures WorkerCommand(s.commands.rabbitmqConsumer, s.commands.maxMessages, n).Some?
    ensures s.paths.workerConfigurationDirectory + n + ".conf" in Materialize(s, render, inv, fs).fs
    ensures Materialize(s, render, inv, fs).fs[s.paths.workerConfigurationDirectory + n + ".conf"]
         == File(render(PROGRAM_TEMPLATE, WorkerVariables(s, ExecutablePath(inv), n,
                   WorkerCommand(s.commands.rabbitmqConsumer, s.commands.maxMessages, n).value)), true)
  {
    var exe := ExecutablePath(inv);
    var dir := s.paths.workerConfigurationDirectory;
    var path := dir + n + ".conf";
    assert path in ConfigurationPaths(s) by { assert n in s.consumers + s.multipleConsumers; }
    BuildMirrorsWorkers(s, render, inv, fs);
    var single := WorkerEntries(s, render, exe, s.consumers, s.commands.rabbitmqConsumer).value;
    var multiple := WorkerEntries(s, render, exe, s.multipleConsumers, s.commands.rabbitmqMultipleConsumer).value;
    assert AllEntries(s, render, inv).value == single + multiple;
    assert path !in Targets(multiple) by {
      TargetsOfWorkerEntries(s, render, exe, s.multipleConsumers, s.commands.rabbitmqMultipleConsumer);
      forall m | m in s.multipleConsumers ensures dir + m + ".conf" != path {
        if dir + m + ".conf" == path { ConfigurationPathInjective(dir, m, n); }
      }
    }
    LastContentOfAppend(single, multiple, path);
    WorkerEntryContent(s, render, exe, s.consumers, s.commands.rabbitmqConsumer, n);
  }

  /** A multiple consumer gets the multiple-consumer template's command,
      whether or not the same name is also a consumer. */
  lemma BuildWritesMultipleConsumerCommand(s: Settings, render: Renderer, inv: Invocation, fs: FileSystem, n: string)
    requires WellFormedWorkers(s)
    requires Materialize(s, render, inv, fs).error.None?
    requires n in s.multipleConsumers
    requires !IsDir(Materialize(s, render, inv, fs).fs, s.paths.workerConfigurationDirectory + n + ".conf")
    ensures WorkerCommand(s.commands.rabbitmqMultipleConsumer, s.commands.maxMessages, n).Some?
    ensures s.paths.workerConfigurationDirectory + n + ".conf" in Materialize(s, render, inv, fs).fs
    ensures Materialize(s, render, inv, fs).fs[s.paths.workerConfigurationDirectory + n + ".conf"]
         == File(render(PROGRAM_TEMPLATE, WorkerVariables(s, ExecutablePath(inv), n,
                   WorkerCommand(s.commands.rabbitmqMultipleConsumer, s.commands.maxMessages, n).value)), true)
  {
    var exe := ExecutablePath(inv);
    var dir := s.paths.workerConfigurationDirectory;
    var path := dir + n + ".conf";
    assert path in ConfigurationPaths(s) by { assert n in s.consumers + s.multipleConsumers; }
    BuildMirrorsWorkers(s, render, inv, fs);
    var single := WorkerEntries(s, render, exe, s.consumers, s.commands.rabbitmqConsumer).value;
    var multiple := WorkerEntries(s, render, exe, s.multipleConsumers, s.commands.rabbitmqMultipleConsumer).value;
    assert AllEntries(s, render, inv).value == single + multiple;
    WorkerEntryContent(s, render, exe, s.multipleConsumers, s.commands.rabbitmqMultipleConsumer, n);
    LastContentOfAppend(single, multiple, path);
  }
}

=== FILE: wrappers.dfy ===
/** The optional value used wherever PHP returns `null` or `false` for "nothing". */
module Wrappers {

  datatype Option<+T> = None | Some(value: T)
}
